=== FILE: README.md ===
# hh_automation in Dafny

A model of the automation core of `hh_automation`, the tool that logs a user in to
hh.uz, searches vacancies on hh.ru and applies to them with an optional cover letter.
It covers four parts:

- **The apply decision engine** (`VacancyApplyService`). It works as an ordered pipeline, and the first step that produces a result wins:
  - bot protection;
  - "already applied";
  - the cover-letter link;
  - locating the apply control;
  - the dropdown "with letter" option;
  - the standard click;
  - the post-apply letter field;
  - the success markers, with an optimistic default.
- **The browser lifecycle** (`BrowserManager`). It starts the driver and browser once and lazily, stops them and resets its fields, checks the session before creating a context, and closes every context it opened.
- **Search** (`VacancySearchService`, `Vacancy`). It defaults the query, builds the search URL, folds the result cards into records, and reads descriptions.
- **Login** (`login`). It classifies the credential as a phone number or an e-mail address, normalises phone numbers, runs the selector loops, checks for the `hhtoken` cookie, and saves the session only on success.

## How the model is built

The page is a `Page` object holding a `View` of everything the engine can observe (title, content, and the presence of each locator). It also holds a function `respond` that says how the page looks after each click, fill or settle delay, and whether the action raised. That function is a parameter. It sees the whole `View`, which ends in a `siteState` field that the engine never reads and the site may use to keep its own history (how many clicks it has seen, say). So every property below holds for every site whose reactions depend on what the engine observes and on such hidden state. A ghost log records every action in order.

The engine is written twice:

- **ApplyModel:** pure functions that return the final view, the actions performed and the result.
- **ApplyService:** imperative methods, one per method of the source, that act on the page step by step. Each is proved to leave the page and the log exactly as its function says.

The browser manager is a class with `Option` handles, a ghost event history and ghost sets of open contexts. Its invariant is that the history never shows more than one live shared browser. `get_page` and `get_interactive_context` are split into their enter and exit halves. `apply` and the search call both halves, so the context is closed on every path.

Search and login take what the site shows as observations:
- result cards that parsed or not;
- description pages;
- selector probes;
- cookies;
- the exceptions that individual steps raised.

Behaviour of the code worth noting, which the model keeps:
- **Missing session in `apply`.** It is caught and returned as an `error` result (`apply.py:235-236`); it is not propagated.
- **Exceptions in strategies 1, 2 and 4.** A click or fill that raises in these strategies is not a fall-through: it reaches the outer handler and becomes an `error` result carrying the exception's message. Only the popup sub-flow swallows its own exceptions.
- **Empty messages.** An `error` result's message may be empty, because it is `str(e)`.
- **Context or page creation failing.** In `apply` a failing `new_context` or `new_page` becomes an `error` result with its message (`apply.py:237-239`), after the `finally` of `get_page` has closed any context already created. The search lets the exception propagate; the model returns it as `Err(PageUnavailable(…))`, like its other errors.

## Model

| member | source | states |
|---|---|---|
| Text.Lower | hh_automation/services/apply.py:39 | lower-casing keeps the length and lower-cases each character (ASCII letters only) |
| Text.ContainsAt | hh_automation/services/apply.py:39 | `w in s` holds exactly when `w` occurs at some position of `s` |
| Text.Strip | hh_automation/services/search.py:55 | the result has no white space at either end and is the input with its leading and trailing white space cut |
| Text.NatToStringValue | hh_automation/services/search.py:93-97 | the decimal text of a natural number reads back as that number and has no leading zero unless the number is zero |
| Text.IntToStringValue | hh_automation/services/search.py:93-97 | the `page` text of the URL reads back as the page number, with a `-` exactly when it is negative |
| Text.Remove | hh_automation/cli/login.py:88 | `replace(c, '')` leaves no `c`, never lengthens, and changes nothing when `c` is absent |
| BotCheck.BotProtected | hh_automation/services/apply.py:35-39 | the page counts as bot-protected iff "captcha" occurs in the lower-cased title or "robot" in the lower-cased content (the search runs the same test, search.py lines 62-66) |
| BotCheck.CaseBlind | hh_automation/services/apply.py:35-39 | titles and contents that differ only in the letter case of ASCII letters get the same verdict |
| BotCheck.ShortTitleIgnored | hh_automation/services/apply.py:35-39 | a title shorter than "captcha" never triggers the check; protection then holds iff the lower-cased content contains "robot" |
| BotCheck.RobotTitleAlone | hh_automation/services/apply.py:35-39 | the check is asymmetric: the title "Robot" with empty content is not bot protection |
| BotCheck.CaptchaTitleTriggers | hh_automation/services/apply.py:35-39 | "captcha" in any letter case anywhere in the title triggers the check |
| BotCheck.RobotContentTriggers | hh_automation/services/search.py:62-66 | "robot" in any letter case anywhere in the content triggers the check (the search runs the same test) |
| ApplyModel.ApplyStatus.Value | hh_automation/services/apply.py:15-19 | the status value is one of "success", "skipped", "error" |
| ApplyModel.ApplyResult.ToDict | hh_automation/services/apply.py:28-29 | the dictionary has exactly the keys "status" and "message", and the status is one of the three values |
| ApplyModel.ToDictRoundTrip | hh_automation/services/apply.py:28-29 | the dictionary gives back the result it was made from |
| ApplyModel.PopupSubmission | hh_automation/services/apply.py:71-81 | no submit button gives "Yuborish tugmasi topilmadi" with no action; with one, the result is success with a letter iff the click does not raise, and None iff it raises; the actions are exactly the click, followed by the 3000 ms delay when the click did not raise |
| ApplyModel.CoverLetterModal | hh_automation/services/apply.py:57-81 | no popup gives None and no action; otherwise it starts with the 1000 ms delay and fills the letter iff the popup has the field; the result is None iff the fill or the submit click raised; otherwise it is "Yuborish tugmasi topilmadi" iff the submit button is absent and success with a letter iff present, whether or not the field was there; the actions are exactly the 1000 ms delay, the fill when the field is there, and the submission's actions unless the fill raised |
| ApplyModel.CoverLetterLinkStrategy | hh_automation/services/apply.py:83-98 | without the link or with an empty message it does nothing and falls through; otherwise it clicks the link first; a click that raises propagates its message; after a good click the popup's result is returned and its None falls through; the actions are exactly the link click followed, when it did not raise, by the popup's actions |
| ApplyModel.DropdownStrategy | hh_automation/services/apply.py:100-123 | without the arrow or with an empty message it does nothing; otherwise it clicks the arrow first; a raising arrow or option click propagates; without the "Kuzatuv xati bilan" option after the 500 ms delay it falls through; after the option is clicked the popup's result is returned and its None falls through; on each branch the actions are exactly the arrow click, the 500 ms delay, the option click and the popup's actions, cut short where the branch ends |
| ApplyModel.PostApplyLetter | hh_automation/services/apply.py:125-146 | without a textarea or with an empty message it does nothing; otherwise it fills the first textarea; a raising fill or send propagates; without a "Yuborish" button after the fill it falls through; with one and a good click the result is the post-apply success; the actions are exactly the fill, then the send click when the button is there and the fill did not raise, then the 2000 ms delay when that click did not raise |
| ApplyModel.AfterStandardClick | hh_automation/services/apply.py:221-233 | strategy 4 is run and its actions are the only ones; its result or exception ends the call; when it falls through the result is "Muvaffaqiyatli javob berildi" iff a success marker shows and "Javob berildi (holati aniq emas)" otherwise; so the status is success unless strategy 4 raised |
| ApplyModel.StandardControl | hh_automation/services/apply.py:201-203 | the control clicked is the top apply link iff it is present, else the bottom one |
| ApplyModel.LocateAndApply | hh_automation/services/apply.py:200-233 | with neither apply link the result is "Javob berish tugmasi topilmadi" and nothing is done; otherwise strategy 2 runs first and its result ends the call; when it falls through the chosen link is clicked right after its actions; a raising click is an error with its message; a good click leads to `AfterStandardClick`'s result on the page after the 2000 ms delay; the actions are exactly strategy 2's, the chosen click, and then the delay and `AfterStandardClick`'s actions when the click did not raise; never skipped |
| ApplyModel.Pipeline | hh_automation/services/apply.py:184-233 | bot protection gives the bot error with no action; then "already applied" gives skipped with no action; skipped arises nowhere else; then strategy 1 runs first, and its result (or exception, as an error) ends the call; when it falls through the result is `LocateAndApply`'s on the page it left, and the actions are exactly strategy 1's followed by `LocateAndApply`'s; an empty message allows only the standard click and its delay, never a fill |
| ApplyModel.LinkStrategyWins | hh_automation/services/apply.py:195-198 | once strategy 1 yields a result it is returned, and neither the dropdown nor an apply link is clicked |
| ApplyModel.MissingControl | hh_automation/services/apply.py:195-209 | with strategy 1 out of play and neither apply link, the result is "Javob berish tugmasi topilmadi" and nothing is clicked |
| ApplyModel.PlainApply | hh_automation/services/apply.py:195-233 | with no message the apply control is the first thing clicked; a raising click is an error with its message; otherwise the result is success, confirmed iff a marker shows after the 2000 ms delay |
| ApplyModel.BottomLinkPostApplyScenario | hh_automation/services/apply.py:200-224 | with only the bottom link and a post-apply field and send button, the result is the post-apply success after exactly: click the link, settle, fill, send, settle |
| ApplyModel.ConfirmedMarkers | hh_automation/services/apply.py:148-158 | success is confirmed iff "Javob topshirildi", "Siz javob berdingiz" or "Rezyume yetkazildi" is on the page |
| ApplyService.FillCoverLetterModal | hh_automation/services/apply.py:46-81 | the popup sub-flow leaves the page, the action log and the result as `CoverLetterModal` says |
| ApplyService.TryCoverLetterLink | hh_automation/services/apply.py:83-98 | strategy 1 acts and answers as `CoverLetterLinkStrategy` says |
| ApplyService.TryDropdownApply | hh_automation/services/apply.py:100-123 | strategy 2 acts and answers as `DropdownStrategy` says |
| ApplyService.TryPostApplyLetter | hh_automation/services/apply.py:125-146 | strategy 4 acts and answers as `PostApplyLetter` says |
| ApplyService.CheckApplicationSuccess | hh_automation/services/apply.py:148-158 | the loop over the success texts answers true iff some marker is shown |
| ApplyService.FinishAfterClick | hh_automation/services/apply.py:221-233 | the end of `apply` acts and answers as `AfterStandardClick` says |
| ApplyService.LocateAndApplyOnPage | hh_automation/services/apply.py:200-233 | locating the control and strategies 2 to 4 act and answer as `LocateAndApply` says |
| ApplyService.ApplyOnPage | hh_automation/services/apply.py:184-233 | the body of `apply` after navigation acts and answers as `Pipeline` says |
| ApplyService.Apply | hh_automation/services/apply.py:160-239 | a missing session, or a context or page that cannot be created, gives an error result carrying its message and touches no page; a page that cannot be created still closes the context that was opened; otherwise the dictionary of the pipeline's result, and the manager's history grows by the start if there was none, then one context opened with the session, its page with `page_timeout`, and that context closed; the shared browser is running afterwards and an existing one is kept; the set of open contexts and the interactive contexts are the same |
| Browser.BrowserManager.constructor | hh_automation/services/browser.py:21-25 | a new manager holds neither driver nor browser |
| Browser.BrowserManager.Start | hh_automation/services/browser.py:27-37 | launches driver and browser only when there is no driver; a second call changes nothing; at most one shared browser is live |
| Browser.BrowserManager.Stop | hh_automation/services/browser.py:39-47 | closes the browser, then stops the driver, each only if present; both fields end empty |
| Browser.BrowserManager.EnterPage | hh_automation/services/browser.py:49-84 | starts the browser if absent; with a session asked for and no session file it fails with the "Session file not found" message before any context exists; a failing `new_context` fails with its message and opens nothing; a failing `new_page` fails with its message after opening and closing a fresh context; otherwise it opens a fresh context whose page timeout is `page_timeout`; it fails iff one of these failures happens |
| Browser.BrowserManager.ExitPage | hh_automation/services/browser.py:86-88 | closes the context that was opened, which can only happen while it is open |
| Browser.BrowserManager.EnterInteractive | hh_automation/services/browser.py:90-108 | launches a browser of its own, headless as asked or else as configured, without touching the shared one |
| Browser.BrowserManager.ExitInteractive | hh_automation/services/browser.py:109-110 | closes that browser |
| Browser.SessionMissingMessage | hh_automation/services/browser.py:49-55 | the error text is "Session file not found: ", the session path, then the hint to run the login command |
| Browser.PageScopeKeepsBrowsers | hh_automation/services/browser.py:57-88 | a whole `get_page` scope neither launches nor closes a shared browser, after any history |
| Search.EffectiveQuery | hh_automation/services/search.py:87 | a missing or empty query is replaced by `default_search_text`; any other is kept |
| Search.SearchUrl | hh_automation/services/search.py:93-97 | the URL is the search path, "?", then `text=` with the query and `&area=` with the area as given, then the rest of the query string |
| Search.SearchUrlParams | hh_automation/services/search.py:93-97 | for a query and area without `&`, the URL's parameters read back as text, area, items_on_page=20 and page, in that order |
| Search.UnencodedAmpersand | hh_automation/services/search.py:93-97 | the query is not encoded: an `&` in it yields five parameters, the first cut at the `&` |
| Search.ListingOf | hh_automation/services/search.py:113-130 | a parsed card keeps its title and link, and its employer defaults to "Noma'lum" |
| Search.Listings | hh_automation/services/search.py:111-134 | the fold yields at most one listing per card |
| Search.ListingsAppend | hh_automation/services/search.py:111-134 | the card fold is order-preserving: the listings of joined card lists are the joined listings |
| Search.ListingsCount | hh_automation/services/search.py:111-134 | there is exactly one listing per card that parsed |
| Search.CollectListings | hh_automation/services/search.py:108-134 | the card loop computes exactly the fold `Listings` |
| Search.DescriptionOf | hh_automation/services/search.py:49-60 | the description is the element's text with the white space at both ends cut, and "" on a missing element or any failure |
| Search.RecordOf | hh_automation/services/search.py:137-146 | the record reads back as the vacancy with the listing's title, link and employer and the description of its page; a listing without a link has `null` url and "" description |
| Search.Vacancy.ToDict | hh_automation/services/search.py:23-29 | a record has exactly the keys title, url, employer, description |
| Search.ToDictRoundTrip | hh_automation/services/search.py:23-29 | the record gives back the vacancy it was made from |
| Search.DescribeAll | hh_automation/services/search.py:137-146 | one record per listing, in order, each with the listing's description (a listing without a link gets "") |
| Search.SearchVacancies | hh_automation/services/search.py:68-149 | a missing session, a context or page that cannot be created (`PageUnavailable`, with its message), a failed navigation, bot protection ("Bot himoyasi ishga tushdi (kapcha aniqlandi)") and absent results are errors, not lists; otherwise one record per parsed card in card order; the manager's history grows by the start if needed and, with a session, one context opened with it, its page and its close; the shared browser stays running; the context set is unchanged |
| Login.NormalizePhone | hh_automation/cli/login.py:88-90 | every `+`, space and dash is removed, and then one leading "998" is dropped if present |
| Login.LooksLikePhone | hh_automation/cli/login.py:84 | a phone-looking input is non-empty; one not starting with `+` is all digits; every input starting with `+`, and every non-empty all-digit input, looks like a phone |
| Login.OneCountryCodeDropped | hh_automation/cli/login.py:89-90 | a number beginning "998998" keeps its second "998" |
| Login.Classify | hh_automation/cli/login.py:75-90 | the input is stripped first; it is a phone iff it starts with `+` or is all digits; a phone's number is the normalised stripped input, with no `+`, space or dash; an e-mail address is the stripped input |
| Login.AtSignMeansEmail | hh_automation/cli/login.py:84 | an input with an `@` that does not start with `+` is taken as an e-mail address |
| Login.ClassifyStripped | hh_automation/cli/login.py:75-84 | classifying an input already stripped gives the same answer |
| Login.ScanSelectors | hh_automation/cli/login.py:121-130 | selectors are tried in order; the loop stops at the first visible element whose action went through; the element held is the last one found before stopping; an element is held iff some selector found one (the same loop shape is used at lines 158-166 and 182-190) |
| Login.HasHhToken | hh_automation/cli/login.py:204-208 | login is judged successful iff some cookie is named "hhtoken" |
| Login.LoginFlow | hh_automation/cli/login.py:28-218 | the session is saved iff nothing raised: the page loaded and, when headless, the "Kirish" click, a phone credential, the phone field, the "Keyingi" click and, if a code field turned up, the code fill all went through; a missing hhtoken does not stop the save; the failure names the first step that raised; the e-mail path always fails with "Email kiritish maydonini topa olmadim"; a visible browser saves after navigation without checks |
| Login.Login | hh_automation/cli/login.py:10-18 | the private browser is launched headless as configured and closed afterwards; the shared browser is never started; the session is saved iff no step raised, as for `LoginFlow` |

## Left out

- Playwright is not modelled. Selectors, `goto`, `wait_for_selector` and `inner_text` become observations and opaque actions. The `View` fields are independent of each other, which over-approximates what a real page can show.
- Timing is not modelled. Settle delays appear only as logged actions. Selector timeouts and navigation timeouts are not modelled: a popup that is not there now is taken as one that never appears.
- Reading the page (`title()`, `content()`, `count()`) is taken never to raise. In the source such an exception would become an `error` result.
- The asyncio lock and all concurrency are left out; every call runs one after another.
- Launching the driver or browser is taken never to fail, and `context.close()` and `browser.close()` are taken never to raise. Failures of `new_context` and `new_page` are modelled.
- Lower-casing and `isdigit` cover ASCII only. White space follows Python's `str.isspace`.
- The URL reading used to state what the search URL contains (`QueryParams`) ignores fragments and percent-decoding.
- Search.SearchVacancies: the description pages are a function of the URL only. The model does not capture that the same tab is reused for every vacancy.
- In `login` the following are not modelled:
  - the applicant radio button and the e-mail tab click, which only print warnings;
  - the `User-Agent` header;
  - the prints, and the HTML dump of the login form, which is taken never to fail (a failure there would end the run without a save);
  - the screenshots, except that a failure of the one taken after "Keyingi" is folded into that click's step (`nextError`);
  - the interactive prompts: the credential typed at the first prompt is a parameter, whether a one-time code was entered is part of the observations, and the code's own text is not modelled;
  - the file written by `storage_state`.
- `hh_automation/server.py` (the HTTP layer) and `hh_automation/config.py` (settings loading) are not part of this model. The settings are parameters. The configured defaults are:
  - `default_search_text` "Frontend";
  - `area_code` "113";
  - `browser_headless` true;
  - `browser_slow_mo` 0;
  - `page_timeout` 30000.

=== FILE: apply_model.dfy ===
/** What one application attempt produces, and the application pipeline of
    `VacancyApplyService` stated as pure functions of the loaded page and of how the
    site responds to each action. The imperative service in module ApplyService is
    proved to behave exactly as these functions say. */
module ApplyModel {
  import opened Wrappers
  import opened Pages
  import opened BotCheck

  /** `ApplyStatus`: a closed set of three outcomes. */
  datatype ApplyStatus = Success | Skipped | Error
  {
    /** The enumeration member's string value. */
    function Value(): (v: string)
      ensures v == "success" || v == "skipped" || v == "error"
    {
      match this
      case Success => "success"
      case Skipped => "skipped"
      case Error => "error"
    }
  }

  /** The status named by a string value, if any. */
  function StatusOf(v: string): (s: Option<ApplyStatus>)
    ensures s.Some? ==> s.value.Value() == v
  {
    if v == "success" then Some(Success)
    else if v == "skipped" then Some(Skipped)
    else if v == "error" then Some(Error)
    else None
  }

  /** `ApplyResult`: a status and a message. */
  datatype ApplyResult = ApplyResult(status: ApplyStatus, message: string)
  {
    /** `to_dict`: exactly the keys "status" and "message". */
    function ToDict(): (d: map<string, string>)
      ensures d.Keys == {"status", "message"}
      ensures d["status"] in {"success", "skipped", "error"}
    {
      map["status" := status.Value(), "message" := message]
    }
  }

  /** Reading a dictionary back, as a caller of `to_dict` would. */
  function ResultOf(d: map<string, string>): Option<ApplyResult>
  {
    if "status" in d && "message" in d && StatusOf(d["status"]).Some?
    then Some(ApplyResult(StatusOf(d["status"]).value, d["message"]))
    else None
  }

  /** `to_dict` loses nothing: the dictionary gives back the result it came from. */
  lemma ToDictRoundTrip(r: ApplyResult)
    ensures ResultOf(r.ToDict()) == Some(r)
  {
    var d := r.ToDict();
    assert d["status"] == r.status.Value();
    match r.status
    case Success =>
    case Skipped =>
    case Error =>
  }

  const BotBlocked := ApplyResult(Error, "Bot himoyasi ishga tushdi (kapcha)")
  const AlreadyApplied := ApplyResult(Skipped, "Allaqachon javob berilgan")
  const SentWithLetter := ApplyResult(Success, "Qo'llash xati bilan javob berildi")
  const SubmitMissing := ApplyResult(Error, "Yuborish tugmasi topilmadi")
  const ControlMissing := ApplyResult(Error, "Javob berish tugmasi topilmadi")
  const SentAfterApply := ApplyResult(Success, "Javob berish o'tkazilganidan so'ng qo'llash xati bilan javob berildi")
  const Applied := ApplyResult(Success, "Muvaffaqiyatli javob berildi")
  const AppliedUnclear := ApplyResult(Success, "Javob berildi (holati aniq emas)")

  /** A stretch of the pipeline: how the page looks at its end, the actions performed
      during it, and what it yields. */
  datatype Run<T> = Run(view: View, actions: seq<Action>, value: T)

  /** `acts` performed before `o`. */
  function Prepend<T>(acts: seq<Action>, o: Run<T>): Run<T>
  {
    Run(o.view, acts + o.actions, o.value)
  }

  /** What a strategy yields: nothing (`None`, fall through), a result, or an exception. */
  datatype Step = Next | Done(result: ApplyResult) | Raised(message: string)

  /** The result `apply` returns for a strategy that stopped the pipeline; an exception
      becomes an error carrying its message. */
  function Outcome(s: Step): ApplyResult
    requires !s.Next?
  {
    match s
    case Done(r) => r
    case Raised(e) => ApplyResult(Error, e)
  }

  /** The actions the popup sub-flow may perform. */
  predicate PopupAction(a: Action, message: string)
  {
    a == Settle(1000) || a == Fill(PopupLetter, message) || a == Click(PopupSubmit) || a == Settle(3000)
  }

  predicate AllPopupActions(acts: seq<Action>, message: string)
  {
    forall a :: a in acts ==> PopupAction(a, message)
  }

  /** `if result: return result`: a popup that produced a result ends the strategy with
      it; `None` falls through to the next one. */
  function PopupStep(r: Option<ApplyResult>): Step
  {
    if r.Some? then Done(r.value) else Next
  }

  /** Clicking the popup's submit button, which happens only when it is there, raised. */
  predicate SubmitClickRaised(v: View, respond: (View, Action) -> Reaction)
  {
    v.popupSubmit && respond(v, Click(PopupSubmit)).raised.Some?
  }

  /** The popup after its 1000 ms delay. */
  function PopupSettled(v: View, respond: (View, Action) -> Reaction): View
  {
    respond(v, Settle(1000)).view
  }

  /** Filling the letter, which happens only when the popup has its field, raised. */
  predicate LetterFillRaised(v: View, respond: (View, Action) -> Reaction, message: string)
  {
    var s := PopupSettled(v, respond);
    s.popupLetter && respond(s, Fill(PopupLetter, message)).raised.Some?
  }

  /** The popup as the submit button is looked for in it: after the fill when there was
      a field, else as it settled. */
  function BeforeSubmit(v: View, respond: (View, Action) -> Reaction, message: string): View
  {
    var s := PopupSettled(v, respond);
    if s.popupLetter then respond(s, Fill(PopupLetter, message)).view else s
  }

  /** The end of `_fill_cover_letter_modal`: submit if the popup's button is there. */
  function PopupSubmission(v: View, respond: (View, Action) -> Reaction): (o: Run<Option<ApplyResult>>)
    ensures !v.popupSubmit ==> o.value == Some(SubmitMissing) && o.actions == []
    ensures v.popupSubmit ==> o.actions != [] && o.actions[0] == Click(PopupSubmit)
    ensures o.value == Some(SentWithLetter) <==> v.popupSubmit && respond(v, Click(PopupSubmit)).raised.None?
    ensures o.value.None? <==> SubmitClickRaised(v, respond)
    ensures forall a :: a in o.actions ==> a == Click(PopupSubmit) || a == Settle(3000)
    ensures v.popupSubmit ==>
      o.actions == [Click(PopupSubmit)] + (if SubmitClickRaised(v, respond) then [] else [Settle(3000)])
  {
    if v.popupSubmit then
      var clicked := respond(v, Click(PopupSubmit));
      if clicked.raised.Some? then Run(clicked.view, [Click(PopupSubmit)], None)
      else Run(respond(clicked.view, Settle(3000)).view, [Click(PopupSubmit), Settle(3000)], Some(SentWithLetter))
    else Run(v, [], Some(SubmitMissing))
  }

  /** `_fill_cover_letter_modal`: wait for the popup, fill the letter if its field is
      there, then submit. Any exception on the way, and a popup that never shows, give
      `None`; a popup without a submit button is an error. */
  function CoverLetterModal(v: View, respond: (View, Action) -> Reaction, message: string): (o: Run<Option<ApplyResult>>)
    ensures !v.popup ==> o == Run(v, [], None)
    ensures v.popup ==> o.actions != [] && o.actions[0] == Settle(1000)
    ensures o.value.Some? ==> o.value.value == SentWithLetter || o.value.value == SubmitMissing
    ensures o.value == Some(SentWithLetter) ==> Click(PopupSubmit) in o.actions
    ensures o.value == Some(SubmitMissing) ==> Click(PopupSubmit) !in o.actions
    ensures AllPopupActions(o.actions, message)
    ensures v.popup ==> (Fill(PopupLetter, message) in o.actions <==> PopupSettled(v, respond).popupLetter)
    ensures v.popup ==>
      (o.value.None? <==> LetterFillRaised(v, respond, message) || SubmitClickRaised(BeforeSubmit(v, respond, message), respond))
    ensures v.popup && !LetterFillRaised(v, respond, message) ==>
      (o.value == Some(SubmitMissing) <==> !BeforeSubmit(v, respond, message).popupSubmit)
    ensures v.popup ==>
      o.actions == [Settle(1000)] + (if PopupSettled(v, respond).popupLetter then [Fill(PopupLetter, message)] else [])
                   + (if LetterFillRaised(v, respond, message) then []
                      else PopupSubmission(BeforeSubmit(v, respond, message), respond).actions)
  {
    if !v.popup then Run(v, [], None)
    else
      var settled := respond(v, Settle(1000)).view;
      if settled.popupLetter then
        var filled := respond(settled, Fill(PopupLetter, message));
        if filled.raised.Some? then Run(filled.view, [Settle(1000), Fill(PopupLetter, message)], None)
        else Prepend([Settle(1000), Fill(PopupLetter, message)], PopupSubmission(filled.view, respond))
      else Prepend([Settle(1000)], PopupSubmission(settled, respond))
  }

  /** `_try_cover_letter_link` (strategy 1): only with a message and a link; a click
      that raises propagates; the popup's `None` falls through. */
  function CoverLetterLinkStrategy(v: View, respond: (View, Action) -> Reaction, message: string): (o: Run<Step>)
    ensures !(v.coverLetterLink && message != "") ==> o == Run(v, [], Next)
    ensures o.value.Done? ==> o.value.result == SentWithLetter || o.value.result == SubmitMissing
    ensures o.actions != [] ==> o.actions[0] == Click(CoverLetterLink) && AllPopupActions(o.actions[1..], message)
    ensures o.value == Done(SentWithLetter) ==> Click(PopupSubmit) in o.actions
    ensures v.coverLetterLink && message != "" ==>
      var clicked := respond(v, Click(CoverLetterLink));
      (clicked.raised.Some? ==> o.value == Raised(clicked.raised.value) && o.actions == [Click(CoverLetterLink)])
      && (clicked.raised.None? ==>
            var modal := CoverLetterModal(clicked.view, respond, message);
            o.value == PopupStep(modal.value) && o.actions == [Click(CoverLetterLink)] + modal.actions)
  {
    if v.coverLetterLink && message != "" then
      var clicked := respond(v, Click(CoverLetterLink));
      if clicked.raised.Some? then Run(clicked.view, [Click(CoverLetterLink)], Raised(clicked.raised.value))
      else
        var modal := CoverLetterModal(clicked.view, respond, message);
        assert ([Click(CoverLetterLink)] + modal.actions)[1..] == modal.actions;
        Run(modal.view, [Click(CoverLetterLink)] + modal.actions, PopupStep(modal.value))
    else Run(v, [], Next)
  }

  /** `_try_dropdown_apply` (strategy 2): only with a message and the dropdown arrow;
      expand, settle, pick the with-letter option if it appeared, run the popup. */
  function DropdownStrategy(v: View, respond: (View, Action) -> Reaction, message: string): (o: Run<Step>)
    ensures !(v.dropdownArrow && message != "") ==> o == Run(v, [], Next)
    ensures o.value.Done? ==> o.value.result == SentWithLetter || o.value.result == SubmitMissing
    ensures o.actions != [] ==> o.actions[0] == Click(DropdownArrow)
    ensures Click(ApplyTop) !in o.actions && Click(ApplyBottom) !in o.actions && Click(CoverLetterLink) !in o.actions
    ensures o.value == Done(SentWithLetter) ==> Click(PopupSubmit) in o.actions
    ensures v.dropdownArrow && message != "" ==>
      var expanded := respond(v, Click(DropdownArrow));
      (expanded.raised.Some? ==> o.value == Raised(expanded.raised.value) && o.actions == [Click(DropdownArrow)])
      && (expanded.raised.None? ==>
            var shown := respond(expanded.view, Settle(500)).view;
            (!shown.withLetterOption ==> o.value == Next && o.actions == [Click(DropdownArrow), Settle(500)])
            && (shown.withLetterOption ==>
                  var picked := respond(shown, Click(WithLetterOption));
                  (picked.raised.Some? ==>
                     o.value == Raised(picked.raised.value)
                     && o.actions == [Click(DropdownArrow), Settle(500), Click(WithLetterOption)])
                  && (picked.raised.None? ==>
                        var modal := CoverLetterModal(picked.view, respond, message);
                        o.value == PopupStep(modal.value)
                        && o.actions == [Click(DropdownArrow), Settle(500), Click(WithLetterOption)] + modal.actions)))
  {
    if v.dropdownArrow && message != "" then
      var expanded := respond(v, Click(DropdownArrow));
      if expanded.raised.Some? then Run(expanded.view, [Click(DropdownArrow)], Raised(expanded.raised.value))
      else
        var settled := respond(expanded.view, Settle(500)).view;
        if settled.withLetterOption then
          var picked := respond(settled, Click(WithLetterOption));
          if picked.raised.Some? then
            Run(picked.view, [Click(DropdownArrow), Settle(500), Click(WithLetterOption)], Raised(picked.raised.value))
          else
            var modal := CoverLetterModal(picked.view, respond, message);
            Run(modal.view, [Click(DropdownArrow), Settle(500), Click(WithLetterOption)] + modal.actions,
                PopupStep(modal.value))
        else Run(settled, [Click(DropdownArrow), Settle(500)], Next)
    else Run(v, [], Next)
  }

  /** `_try_post_apply_letter` (strategy 4): on the post-apply screen ("resume
      delivered" or a textarea), with a message and a textarea, fill the first textarea
      and press "Yuborish" if it is there. Exceptions propagate. */
  function PostApplyLetter(v: View, respond: (View, Action) -> Reaction, message: string): (o: Run<Step>)
    ensures !(v.textarea && message != "") ==> o == Run(v, [], Next)
    ensures o.value.Done? ==> o.value.result == SentAfterApply && Click(SendButton) in o.actions
    ensures o.actions != [] ==> o.actions[0] == Fill(FirstTextarea, message)
    ensures forall a :: a in o.actions ==> a == Fill(FirstTextarea, message) || a == Click(SendButton) || a == Settle(2000)
    ensures v.textarea && message != "" ==>
      var filled := respond(v, Fill(FirstTextarea, message));
      (filled.raised.Some? ==> o.value == Raised(filled.raised.value) && o.actions == [Fill(FirstTextarea, message)])
      && (filled.raised.None? && !filled.view.sendButton ==> o.value == Next && o.actions == [Fill(FirstTextarea, message)])
      && (filled.raised.None? && filled.view.sendButton ==>
            var sent := respond(filled.view, Click(SendButton));
            o.value == (if sent.raised.Some? then Raised(sent.raised.value) else Done(SentAfterApply))
            && o.actions == [Fill(FirstTextarea, message), Click(SendButton)] + (if sent.raised.Some? then [] else [Settle(2000)]))
  {
    if (v.resumeDelivered || v.textarea) && v.textarea && message != "" then
      var filled := respond(v, Fill(FirstTextarea, message));
      if filled.raised.Some? then Run(filled.view, [Fill(FirstTextarea, message)], Raised(filled.raised.value))
      else if filled.view.sendButton then
        var sent := respond(filled.view, Click(SendButton));
        if sent.raised.Some? then
          Run(sent.view, [Fill(FirstTextarea, message), Click(SendButton)], Raised(sent.raised.value))
        else
          Run(respond(sent.view, Settle(2000)).view, [Fill(FirstTextarea, message), Click(SendButton), Settle(2000)],
              Done(SentAfterApply))
      else Run(filled.view, [Fill(FirstTextarea, message)], Next)
    else Run(v, [], Next)
  }

  /** The success markers `_check_application_success` looks for, in its order. */
  datatype Marker = SubmittedMarker | RespondedMarker | DeliveredMarker

  const SuccessMarkers: seq<Marker> := [SubmittedMarker, RespondedMarker, DeliveredMarker]

  predicate Shows(v: View, m: Marker)
  {
    match m
    case SubmittedMarker => v.submittedText
    case RespondedMarker => v.respondedText
    case DeliveredMarker => v.resumeDelivered
  }

  /** Some success marker is on the page. */
  predicate Confirmed(v: View)
  {
    exists i :: 0 <= i < |SuccessMarkers| && Shows(v, SuccessMarkers[i])
  }

  /** After the standard click and its settle delay: strategy 4, then the success
      markers, and otherwise the optimistic default. */
  function AfterStandardClick(v: View, respond: (View, Action) -> Reaction, message: string): (o: Run<ApplyResult>)
    ensures o.value.status == Success
            || (o.value.status == Error && message != "" && o.actions != [] && o.actions[0] == Fill(FirstTextarea, message))
    ensures o.value.status == Success ==> o.value in {SentAfterApply, Applied, AppliedUnclear}
    ensures message == "" ==> o.actions == [] && o.value == (if Confirmed(v) then Applied else AppliedUnclear)
    ensures o.value == SentAfterApply ==> Click(SendButton) in o.actions
    ensures var post := PostApplyLetter(v, respond, message);
      o.view == post.view && o.actions == post.actions
      && (!post.value.Next? ==> o.value == Outcome(post.value))
      && (post.value.Next? ==> (o.value == Applied <==> Confirmed(post.view)) && (o.value == AppliedUnclear <==> !Confirmed(post.view)))
  {
    var post := PostApplyLetter(v, respond, message);
    if !post.value.Next? then Run(post.view, post.actions, Outcome(post.value))
    else Run(post.view, post.actions, if Confirmed(post.view) then Applied else AppliedUnclear)
  }

  /** The apply control `apply` settles on: the top link if present, else the bottom one. */
  function StandardControl(v: View): (c: Control)
    ensures c == ApplyTop || c == ApplyBottom
    ensures c == ApplyTop <==> v.applyTop
  {
    if v.applyTop then ApplyTop else ApplyBottom
  }

  /** From locating the apply control to the end: a missing control is an error before
      strategies 2 to 4; otherwise strategy 2, the standard click (strategy 3), and the
      rest. Only the located control is ever clicked. */
  function LocateAndApply(v: View, respond: (View, Action) -> Reaction, message: string): (o: Run<ApplyResult>)
    ensures !v.applyTop && !v.applyBottom ==> o == Run(v, [], ControlMissing)
    ensures Click(if v.applyTop then ApplyBottom else ApplyTop) !in o.actions
    ensures message == "" ==> o.actions <= [Click(StandardControl(v)), Settle(2000)]
    ensures o.value.status != Skipped
    ensures o.value == SentWithLetter ==> message != "" && Click(PopupSubmit) in o.actions
    ensures o.value == SentAfterApply ==> message != "" && Click(SendButton) in o.actions
    ensures v.applyTop || v.applyBottom ==>
      var dropdown := DropdownStrategy(v, respond, message);
      (!dropdown.value.Next? ==> o.value == Outcome(dropdown.value) && o.actions == dropdown.actions)
      && (dropdown.value.Next? ==>
            var clicked := respond(dropdown.view, Click(StandardControl(v)));
            dropdown.actions + [Click(StandardControl(v))] <= o.actions
            && (clicked.raised.Some? ==>
                  o.value == ApplyResult(Error, clicked.raised.value) && o.actions == dropdown.actions + [Click(StandardControl(v))])
            && (clicked.raised.None? ==>
                  var rest := AfterStandardClick(respond(clicked.view, Settle(2000)).view, respond, message);
                  o.value == rest.value
                  && o.actions == dropdown.actions + [Click(StandardControl(v)), Settle(2000)] + rest.actions))
  {
    if !v.applyTop && !v.applyBottom then Run(v, [], ControlMissing)
    else
      var control := StandardControl(v);
      var dropdown := DropdownStrategy(v, respond, message);
      if !dropdown.value.Next? then Run(dropdown.view, dropdown.actions, Outcome(dropdown.value))
      else
        var clicked := respond(dropdown.view, Click(control));
        if clicked.raised.Some? then
          Run(clicked.view, dropdown.actions + [Click(control)], ApplyResult(Error, clicked.raised.value))
        else
          var rest := AfterStandardClick(respond(clicked.view, Settle(2000)).view, respond, message);
          Run(rest.view, dropdown.actions + [Click(control), Settle(2000)] + rest.actions, rest.value)
  }

  /** Everything `apply` does once the page is loaded: bot protection first, then the
      already-applied check, strategy 1, and the rest. */
  function Pipeline(v: View, respond: (View, Action) -> Reaction, message: string): (o: Run<ApplyResult>)
    ensures BotProtected(v.title, v.content) ==> o == Run(v, [], BotBlocked)
    ensures !BotProtected(v.title, v.content) && v.respondedText ==> o == Run(v, [], AlreadyApplied)
    ensures o.value.status == Skipped ==> !BotProtected(v.title, v.content) && v.respondedText && o.actions == []
    ensures message == "" ==> o.actions <= [Click(StandardControl(v)), Settle(2000)]
    ensures message == "" ==> forall a :: a in o.actions ==> !a.Fill?
    ensures o.value == SentWithLetter ==> message != "" && Click(PopupSubmit) in o.actions
    ensures o.value == SentAfterApply ==> message != "" && Click(SendButton) in o.actions
    ensures !BotProtected(v.title, v.content) && !v.respondedText ==>
      var link := CoverLetterLinkStrategy(v, respond, message);
      link.actions <= o.actions
      && (!link.value.Next? ==> o.value == Outcome(link.value) && o.actions == link.actions)
      && (link.value.Next? ==>
            var rest := LocateAndApply(link.view, respond, message);
            o.value == rest.value && o.actions == link.actions + rest.actions)
  {
    if BotProtected(v.title, v.content) then Run(v, [], BotBlocked)
    else if v.respondedText then Run(v, [], AlreadyApplied)
    else
      var link := CoverLetterLinkStrategy(v, respond, message);
      if !link.value.Next? then Run(link.view, link.actions, Outcome(link.value))
      else Prepend(link.actions, LocateAndApply(link.view, respond, message))
  }

  /** Strategy order: once the cover-letter link has produced a result, that result
      is returned and neither the dropdown nor any apply control is touched. */
  lemma LinkStrategyWins(v: View, respond: (View, Action) -> Reaction, message: string)
    requires !BotProtected(v.title, v.content) && !v.respondedText
    requires CoverLetterLinkStrategy(v, respond, message).value.Done?
    ensures var o := Pipeline(v, respond, message);
      o.value == CoverLetterLinkStrategy(v, respond, message).value.result
      && Click(DropdownArrow) !in o.actions && Click(ApplyTop) !in o.actions && Click(ApplyBottom) !in o.actions
  {
    var link := CoverLetterLinkStrategy(v, respond, message);
    forall a | a in link.actions
      ensures a != Click(DropdownArrow) && a != Click(ApplyTop) && a != Click(ApplyBottom)
    {
      var k :| 0 <= k < |link.actions| && link.actions[k] == a;
      if k > 0 {
        assert link.actions[1..][k - 1] == a;
      }
    }
  }

  /** With strategy 1 out of play, a page with neither apply link gives "Javob berish
      tugmasi topilmadi" and nothing is clicked. */
  lemma MissingControl(v: View, respond: (View, Action) -> Reaction, message: string)
    requires !BotProtected(v.title, v.content) && !v.respondedText
    requires !v.coverLetterLink || message == ""
    requires !v.applyTop && !v.applyBottom
    ensures Pipeline(v, respond, message) == Run(v, [], ControlMissing)
  {
  }

  /** Without a message no letter strategy runs: the apply control is clicked at once;
      a click that raises is an error with its message, otherwise the result is success,
      confirmed exactly when a marker shows after the 2000 ms delay. */
  lemma PlainApply(v: View, respond: (View, Action) -> Reaction)
    requires !BotProtected(v.title, v.content) && !v.respondedText
    requires v.applyTop || v.applyBottom
    ensures var o := Pipeline(v, respond, "");
      var clicked := respond(v, Click(StandardControl(v)));
      o.actions != [] && o.actions[0] == Click(StandardControl(v))
      && (clicked.raised.Some? ==> o.value == ApplyResult(Error, clicked.raised.value))
      && (clicked.raised.None? ==>
            o.value == (if Confirmed(respond(clicked.view, Settle(2000)).view) then Applied else AppliedUnclear))
  {
    var link := CoverLetterLinkStrategy(v, respond, "");
    assert link == Run(v, [], Next);
    var rest := LocateAndApply(v, respond, "");
    assert DropdownStrategy(v, respond, "") == Run(v, [], Next);
    assert [] + [Click(StandardControl(v))] <= rest.actions;
  }

  /** `_check_application_success` finds a marker exactly when one of the three texts
      is on the page. */
  lemma ConfirmedMarkers(v: View)
    ensures Confirmed(v) <==> v.submittedText || v.respondedText || v.resumeDelivered
  {
    if v.submittedText { assert Shows(v, SuccessMarkers[0]); }
    if v.respondedText { assert Shows(v, SuccessMarkers[1]); }
    if v.resumeDelivered { assert Shows(v, SuccessMarkers[2]); }
  }

  /** A page with only the bottom apply link, whose post-apply screen offers a text
      field and a "Yuborish" button: no popup is touched, the link is clicked, the letter
      goes into the field and is sent. */
  lemma BottomLinkPostApplyScenario(v: View, respond: (View, Action) -> Reaction, message: string)
    requires !BotProtected(v.title, v.content) && !v.respondedText && !v.coverLetterLink
    requires !v.applyTop && v.applyBottom && !v.dropdownArrow && message != ""
    requires respond(v, Click(ApplyBottom)).raised.None?
    requires var w := respond(respond(v, Click(ApplyBottom)).view, Settle(2000)).view;
      var filled := respond(w, Fill(FirstTextarea, message));
      w.textarea && filled.raised.None? && filled.view.sendButton
      && respond(filled.view, Click(SendButton)).raised.None?
    ensures var o := Pipeline(v, respond, message);
      o.value == SentAfterApply
      && o.actions == [Click(ApplyBottom), Settle(2000), Fill(FirstTextarea, message), Click(SendButton), Settle(2000)]
  {
  }
}

=== FILE: apply_service.dfy ===
/** `VacancyApplyService`: the steps of `apply` performed one after another on a live
    page. Every method is proved to leave the page, and the log of actions performed on
    it, exactly as the pure pipeline of module ApplyModel says, and to return the same
    result; the properties of the pipeline therefore hold of the service. */
module ApplyService {
  import opened Wrappers
  import opened Pages
  import opened BotCheck
  import opened ApplyModel
  import Browser

  /** `_fill_cover_letter_modal`. */
  method FillCoverLetterModal(page: Page, message: string) returns (r: Option<ApplyResult>)
    modifies page
    ensures var o := CoverLetterModal(old(page.view), page.respond, message);
      page.view == o.view && page.log == old(page.log) + o.actions && r == o.value
  {
    if !page.view.popup {
      return None;
    }
    page.Settle(1000);
    if page.view.popupLetter {
      var raised := page.Fill(PopupLetter, message);
      if raised.Some? {
        return None;
      }
    }
    if page.view.popupSubmit {
      var raised := page.Click(PopupSubmit);
      if raised.Some? {
        return None;
      }
      page.Settle(3000);
      return Some(SentWithLetter);
    }
    return Some(SubmitMissing);
  }

  /** `_try_cover_letter_link` (strategy 1). */
  method TryCoverLetterLink(page: Page, message: string) returns (s: Step)
    modifies page
    ensures var o := CoverLetterLinkStrategy(old(page.view), page.respond, message);
      page.view == o.view && page.log == old(page.log) + o.actions && s == o.value
  {
    if page.view.coverLetterLink && message != "" {
      var raised := page.Click(CoverLetterLink);
      if raised.Some? {
        return Raised(raised.value);
      }
      var result := FillCoverLetterModal(page, message);
      if result.Some? {
        return Done(result.value);
      }
    }
    return Next;
  }

  /** `_try_dropdown_apply` (strategy 2). */
  method TryDropdownApply(page: Page, message: string) returns (s: Step)
    modifies page
    ensures var o := DropdownStrategy(old(page.view), page.respond, message);
      page.view == o.view && page.log == old(page.log) + o.actions && s == o.value
  {
    if page.view.dropdownArrow && message != "" {
      var raised := page.Click(DropdownArrow);
      if raised.Some? {
        return Raised(raised.value);
      }
      page.Settle(500);
      if page.view.withLetterOption {
        raised := page.Click(WithLetterOption);
        if raised.Some? {
          return Raised(raised.value);
        }
        var result := FillCoverLetterModal(page, message);
        if result.Some? {
          return Done(result.value);
        }
      }
    }
    return Next;
  }

  /** `_try_post_apply_letter` (strategy 4). */
  method TryPostApplyLetter(page: Page, message: string) returns (s: Step)
    modifies page
    ensures var o := PostApplyLetter(old(page.view), page.respond, message);
      page.view == o.view && page.log == old(page.log) + o.actions && s == o.value
  {
    if page.view.resumeDelivered || page.view.textarea {
      if page.view.textarea && message != "" {
        var raised := page.Fill(FirstTextarea, message);
        if raised.Some? {
          return Raised(raised.value);
        }
        if page.view.sendButton {
          raised := page.Click(SendButton);
          if raised.Some? {
            return Raised(raised.value);
          }
          page.Settle(2000);
          return Done(SentAfterApply);
        }
      }
    }
    return Next;
  }

  /** `_check_application_success`: look for each success text in turn. */
  method CheckApplicationSuccess(page: Page) returns (found: bool)
    ensures found <==> Confirmed(page.view)
  {
    var markers := SuccessMarkers;
    for i := 0 to |markers|
      invariant forall k :: 0 <= k < i ==> !Shows(page.view, markers[k])
    {
      if Shows(page.view, markers[i]) {
        return true;
      }
    }
    return false;
  }

  /** The end of `apply` after the standard click and its delay: strategy 4, then
      the success check. */
  method FinishAfterClick(page: Page, message: string) returns (r: ApplyResult)
    modifies page
    ensures var o := AfterStandardClick(old(page.view), page.respond, message);
      page.view == o.view && page.log == old(page.log) + o.actions && r == o.value
  {
    var step := TryPostApplyLetter(page, message);
    if !step.Next? {
      return Outcome(step);
    }
    var confirmed := CheckApplicationSuccess(page);
    r := if confirmed then Applied else AppliedUnclear;
  }

  /** The part of `apply` from locating the apply control on: strategies 2 and 3 and
      the end. */
  method LocateAndApplyOnPage(page: Page, message: string) returns (r: ApplyResult)
    modifies page
    ensures var o := LocateAndApply(old(page.view), page.respond, message);
      page.view == o.view && page.log == old(page.log) + o.actions && r == o.value
  {
    var control := ApplyTop;
    if !page.view.applyTop {
      control := ApplyBottom;
    }
    if !page.view.applyTop && !page.view.applyBottom {
      return ControlMissing;
    }
    var step := TryDropdownApply(page, message);
    if !step.Next? {
      return Outcome(step);
    }
    var raised := page.Click(control);
    if raised.Some? {
      return ApplyResult(Error, raised.value);
    }
    page.Settle(2000);
    r := FinishAfterClick(page, message);
  }

  /** The body of `apply` inside `get_page`, once navigation is over: the same
      result and the same actions as `Pipeline`. */
  method ApplyOnPage(page: Page, message: string) returns (r: ApplyResult)
    modifies page
    ensures var o := Pipeline(old(page.view), page.respond, message);
      page.view == o.view && page.log == old(page.log) + o.actions && r == o.value
  {
    ghost var v, log0 := page.view, page.log;
    if BotProtected(page.view.title, page.view.content) {
      return BotBlocked;
    }
    if page.view.respondedText {
      return AlreadyApplied;
    }
    ghost var link := CoverLetterLinkStrategy(v, page.respond, message);
    var step := TryCoverLetterLink(page, message);
    if !step.Next? {
      return Outcome(step);
    }
    assert page.view == link.view && page.log == log0 + link.actions;
    ghost var mid := page.log;
    ghost var rest := LocateAndApply(link.view, page.respond, message);
    assert Pipeline(v, page.respond, message) == Prepend(link.actions, rest);
    r := LocateAndApplyOnPage(page, message);
    assert page.log == mid + rest.actions;
    ConcatAssoc(log0, link.actions, rest.actions);
  }

  lemma ConcatAssoc(a: seq<Action>, b: seq<Action>, c: seq<Action>)
    ensures (a + b) + c == a + (b + c)
  {
  }

  /** `apply`: open a page with the saved session, navigate to the vacancy (`page` is
      the tab as navigation left it; a navigation timeout is only logged), run the
      pipeline and close the context on the way out. When no page can be had (a missing
      session file, or `new_context` or `new_page` raising, as `open` says) the result
      is an error carrying the exception's message, and no page is touched. The result
      is returned as its dictionary. */
  method Apply(manager: Browser.BrowserManager, page: Page, message: string, sessionFileExists: bool,
               open: Browser.OpenObs)
    returns (d: map<string, string>)
    requires manager.Valid()
    modifies manager, page
    ensures manager.Valid()
    ensures manager.openContexts == old(manager.openContexts) && manager.interactive == old(manager.interactive)
    ensures var failure := Browser.OpenFailure(manager.settings, true, sessionFileExists, open);
      failure.Some? ==>
        d == ApplyResult(Error, failure.value).ToDict()
        && page.view == old(page.view) && page.log == old(page.log)
    ensures Browser.OpenFailure(manager.settings, true, sessionFileExists, open).None? ==>
      var o := Pipeline(old(page.view), page.respond, message);
      d == o.value.ToDict() && page.view == o.view && page.log == old(page.log) + o.actions
    ensures manager.browser.Some?
    ensures old(manager.browser).Some? ==>
      manager.browser == old(manager.browser) && manager.playwright == old(manager.playwright)
    ensures var launch := if old(manager.browser).None? then Browser.StartEvents(old(manager.nextHandle), manager.settings) else [];
      (!sessionFileExists || open.contextError.Some? ==> manager.events == old(manager.events) + launch)
      && (sessionFileExists && open.contextError.None? && open.pageError.Some? ==>
            exists c :: c !in old(manager.openContexts)
              && manager.events == old(manager.events) + launch + Browser.AbortedScope(c, true))
      && (Browser.OpenFailure(manager.settings, true, sessionFileExists, open).None? ==>
            exists c :: c !in old(manager.openContexts)
              && manager.events == old(manager.events) + launch + Browser.PageScope(c, true, manager.settings.pageTimeout))
  {
    var entered := manager.EnterPage(true, sessionFileExists, open);
    if entered.Err? {
      return ApplyResult(Error, entered.error).ToDict();
    }
    ghost var inside := manager.events;
    var r := ApplyOnPage(page, message);
    manager.ExitPage(entered.value);
    d := r.ToDict();
    assert manager.events == inside + [Browser.ContextClosed(entered.value.context)];
  }
}

=== FILE: bot_check.dfy ===
/** The bot-protection test that both the apply service and the search service run
    on a freshly loaded page (`_check_bot_protection` in each of them). */
module BotCheck {
  import opened Text

  /** `"captcha" in title.lower() or "robot" in content.lower()`. */
  predicate BotProtected(title: string, content: string)
    ensures BotProtected(title, content) <==> Occurs(Lower(title), "captcha") || Occurs(Lower(content), "robot")
  {
    ContainsAt(Lower(title), "captcha");
    ContainsAt(Lower(content), "robot");
    Contains(Lower(title), "captcha") || Contains(Lower(content), "robot")
  }

  /** The test is asymmetric: a title shorter than "captcha" never triggers it, whatever
      it says ("Robot" included); only the content is searched for "robot". */
  lemma {:induction false} ShortTitleIgnored(title: string, content: string)
    requires |title| < |"captcha"|
    ensures BotProtected(title, content) <==> Contains(Lower(content), "robot")
  {
    ContainsNeedsRoom(Lower(title), "captcha");
  }

  /** The test is blind to letter case: texts that differ only in the case of ASCII
      letters get the same answer. */
  lemma CaseBlind(title: string, title2: string, content: string, content2: string)
    requires |title| == |title2| && forall i :: 0 <= i < |title| ==> LowerChar(title[i]) == LowerChar(title2[i])
    requires |content| == |content2| && forall i :: 0 <= i < |content| ==> LowerChar(content[i]) == LowerChar(content2[i])
    ensures BotProtected(title, content) <==> BotProtected(title2, content2)
  {
    ContainsLowerCaseless(title, title2, "captcha");
    ContainsLowerCaseless(content, content2, "robot");
  }

  /** "robot" in the title alone does not trigger the test. */
  lemma RobotTitleAlone()
    ensures !BotProtected("Robot", "")
  {
    ShortTitleIgnored("Robot", "");
    ContainsNeedsRoom(Lower(""), "robot");
  }

  /** Any upper/lower-case spelling of "captcha" in the title triggers the test. */
  lemma {:induction false} CaptchaTitleTriggers(title: string, i: nat, content: string)
    requires i + 7 <= |title| && Lower(title[i..i + 7]) == "captcha"
    ensures BotProtected(title, content)
  {
    var lt := Lower(title);
    assert lt[i..i + 7] == Lower(title[i..i + 7]);
    assert OccursAt(lt, "captcha", i);
    ContainsAt(lt, "captcha");
  }

  /** Likewise any spelling of "robot" anywhere in the content. */
  lemma {:induction false} RobotContentTriggers(title: string, content: string, i: nat)
    requires i + 5 <= |content| && Lower(content[i..i + 5]) == "robot"
    ensures BotProtected(title, content)
  {
    var lc := Lower(content);
    assert lc[i..i + 5] == Lower(content[i..i + 5]);
    assert OccursAt(lc, "robot", i);
    ContainsAt(lc, "robot");
  }
}

=== FILE: browser.dfy ===
/** The browser lifecycle owner (`BrowserManager`): one shared Playwright driver and
    browser, started at most once and lazily, and scoped browsing contexts that are
    closed on every way out. Calls are taken to run one after another. */
module Browser {
  import opened Wrappers

  /** The settings the manager reads. `sessionFile` is the saved-session path. */
  datatype Settings = Settings(headless: bool, slowMo: int, pageTimeout: int, sessionFile: string)

  /** The text of the `FileNotFoundError` raised when the saved session is missing. */
  function SessionMissingMessage(path: string): (m: string)
    ensures |m| >= 24 + |path| && m[..24] == "Session file not found: "
    ensures m[24..24 + |path|] == path
    ensures m[24 + |path|..] == ". Run 'python -m hh_automation.cli.login' first."
  {
    "Session file not found: " + path + ". Run 'python -m hh_automation.cli.login' first."
  }

  /** What the manager does to the outside world, in order; handles are numbered. */
  datatype Event =
    | PlaywrightStarted(driver: nat)
    | BrowserLaunched(browser: nat, headless: bool, slowMo: int)
    | BrowserClosed(browser: nat)
    | PlaywrightStopped(driver: nat)
    | ContextOpened(context: nat, withSession: bool)
    | PageOpened(context: nat, timeout: int)
    | ContextClosed(context: nat)
    | InteractiveLaunched(browser: nat, headless: bool)
    | InteractiveClosed(browser: nat)

  /** Launches minus closes of the shared browser in an event history. */
  function LiveBrowsers(events: seq<Event>): int
  {
    if events == [] then 0
    else LiveBrowsers(events[..|events| - 1]) + Delta(events[|events| - 1])
  }

  function Delta(e: Event): int
  {
    match e
    case BrowserLaunched(_, _, _) => 1
    case BrowserClosed(_) => -1
    case _ => 0
  }

  /** Recording one more event changes the count of live shared browsers by that
      event's own contribution. */
  lemma LiveBrowsersPush(h: seq<Event>, e: Event)
    ensures LiveBrowsers(h + [e]) == LiveBrowsers(h) + Delta(e)
  {
    assert (h + [e])[..|h + [e]| - 1] == h;
  }

  /** The count of live shared browsers adds up over concatenated histories. */
  lemma {:induction false} LiveBrowsersAppend(a: seq<Event>, b: seq<Event>)
    ensures LiveBrowsers(a + b) == LiveBrowsers(a) + LiveBrowsers(b)
    decreases |b|
  {
    if b == [] {
      assert a + b == a;
    } else {
      var init := b[..|b| - 1];
      var last := b[|b| - 1];
      assert a + b == (a + init) + [last];
      LiveBrowsersPush(a + init, last);
      LiveBrowsersAppend(a, init);
      assert b == init + [last];
      LiveBrowsersPush(init, last);
    }
  }

  /** Starting the driver `driver` and launching the shared browser `driver + 1` with
      the configured mode and delay. */
  function StartEvents(driver: nat, s: Settings): seq<Event>
  {
    [PlaywrightStarted(driver), BrowserLaunched(driver + 1, s.headless, s.slowMo)]
  }

  /** The start of the driver and the shared browser when `needed`, else nothing. */
  function LaunchIf(needed: bool, driver: nat, s: Settings): seq<Event>
  {
    if needed then StartEvents(driver, s) else []
  }

  /** One whole `get_page` scope: its context opened, its page created with the default
      timeout, the context closed. */
  function PageScope(context: nat, withSession: bool, timeout: int): seq<Event>
  {
    [ContextOpened(context, withSession), PageOpened(context, timeout), ContextClosed(context)]
  }

  /** A `get_page` scope neither launches nor closes a shared browser, whatever came
      before it. */
  lemma PageScopeKeepsBrowsers(h: seq<Event>, context: nat, withSession: bool, timeout: int)
    ensures LiveBrowsers(h + PageScope(context, withSession, timeout)) == LiveBrowsers(h)
  {
    var p := PageScope(context, withSession, timeout);
    LiveBrowsersAppend(h, p);
    assert p[..2][..1] == [ContextOpened(context, withSession)];
    assert LiveBrowsers(p[..2][..1]) == 0;
    assert p[..2] == p[..2][..1] + [PageOpened(context, timeout)];
    assert p == p[..2] + [ContextClosed(context)];
  }

  /** A context opened whose page could not be created, closed again by the `finally`
      of `get_page`. */
  function AbortedScope(context: nat, withSession: bool): seq<Event>
  {
    [ContextOpened(context, withSession), ContextClosed(context)]
  }

  /** What the browser did when `get_page` asked it for a context and then a page: the
      message of the exception `new_context` or `new_page` raised, if one did. */
  datatype OpenObs = OpenObs(contextError: Option<string>, pageError: Option<string>)

  /** The exception `get_page` raises before it yields, if any: a missing session file
      is found first, then a failing `new_context`, then a failing `new_page`. */
  function OpenFailure(settings: Settings, useSession: bool, sessionFileExists: bool, open: OpenObs): Option<string>
  {
    if useSession && !sessionFileExists then Some(SessionMissingMessage(settings.sessionFile))
    else if open.contextError.Some? then open.contextError
    else open.pageError
  }

  /** A page handed out by `get_page`: the context it lives in and its default timeout. */
  datatype PageHandle = PageHandle(context: nat, timeout: int)

  /** The private browser behind `get_interactive_context`. */
  datatype InteractiveHandle = InteractiveHandle(browser: nat, headless: bool)

  class BrowserManager {
    const settings: Settings
    var playwright: Option<nat>
    var browser: Option<nat>
    /** The next unused handle number. */
    var nextHandle: nat
    ghost var events: seq<Event>
    /** Contexts created by `get_page` and not yet closed. */
    ghost var openContexts: set<nat>
    /** Interactive browsers launched and not yet closed. */
    ghost var interactive: set<nat>

    /** The driver and the browser exist together, and the history shows exactly as
        many live shared browsers as the manager holds: never more than one. */
    ghost predicate Valid()
      reads this
    {
      playwright.Some? == browser.Some?
      && LiveBrowsers(events) == (if browser.Some? then 1 else 0)
      && (forall c :: c in openContexts ==> c < nextHandle)
      && (forall b :: b in interactive ==> b < nextHandle)
    }

    /** Record `e` in the history. */
    ghost method Log(e: Event)
      modifies this`events
      ensures events == old(events) + [e]
      ensures LiveBrowsers(events) == LiveBrowsers(old(events)) + Delta(e)
    {
      LiveBrowsersPush(events, e);
      events := events + [e];
    }

    constructor (settings: Settings)
      ensures Valid() && this.settings == settings
      ensures playwright.None? && browser.None?
      ensures events == [] && openContexts == {} && interactive == {}
    {
      this.settings := settings;
      playwright := None;
      browser := None;
      nextHandle := 0;
      events := [];
      openContexts := {};
      interactive := {};
    }

    /** `start`: launch the driver and the browser only if the driver is not there yet. */
    method Start()
      requires Valid()
      modifies this
      ensures Valid() && browser.Some?
      ensures old(playwright).None? ==>
        playwright == Some(old(nextHandle)) && browser == Some(old(nextHandle) + 1)
        && events == old(events) + StartEvents(old(nextHandle), settings)
      ensures old(playwright).Some? ==>
        playwright == old(playwright) && browser == old(browser) && events == old(events)
      ensures openContexts == old(openContexts) && interactive == old(interactive)
      ensures nextHandle >= old(nextHandle)
    {
      if playwright.None? {
        var driver := nextHandle;
        var launched := nextHandle + 1;
        nextHandle := nextHandle + 2;
        playwright := Some(driver);
        browser := Some(launched);
        ghost var before := events;
        Log(PlaywrightStarted(driver));
        Log(BrowserLaunched(launched, settings.headless, settings.slowMo));
        assert events == before + StartEvents(driver, settings);
      }
    }

    /** `stop`: close the browser, then stop the driver, each only if present. */
    method Stop()
      requires Valid()
      modifies this
      ensures Valid() && playwright.None? && browser.None?
      ensures events == old(events)
        + (if old(browser).Some? then [BrowserClosed(old(browser).value)] else [])
        + (if old(playwright).Some? then [PlaywrightStopped(old(playwright).value)] else [])
      ensures openContexts == old(openContexts) && interactive == old(interactive)
      ensures nextHandle == old(nextHandle)
    {
      if browser.Some? {
        Log(BrowserClosed(browser.value));
        browser := None;
      }
      if playwright.Some? {
        Log(PlaywrightStopped(playwright.value));
        playwright := None;
      }
    }

    /** The first half of `get_page`, up to the `yield`: start lazily, check the saved
        session before anything is created, then open a context and a page whose default
        timeout is the configured one. `open` is what the browser answers; a context
        whose page fails is closed again before the exception leaves. */
    method EnterPage(useSession: bool, sessionFileExists: bool, open: OpenObs) returns (r: Result<PageHandle, string>)
      requires Valid()
      modifies this
      ensures Valid() && browser.Some?
      ensures old(browser).Some? ==> browser == old(browser) && playwright == old(playwright)
      ensures r.Err? <==> OpenFailure(settings, useSession, sessionFileExists, open).Some?
      ensures r.Err? ==>
        r.error == OpenFailure(settings, useSession, sessionFileExists, open).value && openContexts == old(openContexts)
      ensures (useSession && !sessionFileExists) || open.contextError.Some? ==>
        events == old(events) + LaunchIf(old(browser).None?, old(nextHandle), settings)
      ensures !(useSession && !sessionFileExists) && open.contextError.None? && open.pageError.Some? ==>
        exists c :: c !in old(openContexts)
          && events == old(events) + LaunchIf(old(browser).None?, old(nextHandle), settings) + AbortedScope(c, useSession)
      ensures r.Ok? ==>
        r.value.timeout == settings.pageTimeout
        && r.value.context !in old(openContexts)
        && openContexts == old(openContexts) + {r.value.context}
        && events == old(events) + LaunchIf(old(browser).None?, old(nextHandle), settings)
                     + [ContextOpened(r.value.context, useSession), PageOpened(r.value.context, settings.pageTimeout)]
      ensures interactive == old(interactive)
    {
      ghost var launched := LaunchIf(browser.None?, nextHandle, settings);
      if browser.None? {
        Start();
      }
      assert events == old(events) + launched && openContexts == old(openContexts);
      if useSession && !sessionFileExists {
        return Err(SessionMissingMessage(settings.sessionFile));
      }
      if open.contextError.Some? {
        return Err(open.contextError.value);
      }
      var context := nextHandle;
      nextHandle := nextHandle + 1;
      ghost var before := events;
      assert context !in old(openContexts);
      Log(ContextOpened(context, useSession));
      if open.pageError.Some? {
        Log(ContextClosed(context));
        assert events == before + AbortedScope(context, useSession);
        return Err(open.pageError.value);
      }
      Log(PageOpened(context, settings.pageTimeout));
      openContexts := openContexts + {context};
      r := Ok(PageHandle(context, settings.pageTimeout));
    }

    /** The `finally` of `get_page`: close the context that was created. A context can be
        closed only while it is open, so never twice. */
    method ExitPage(h: PageHandle)
      requires Valid() && h.context in openContexts
      modifies this
      ensures Valid()
      ensures openContexts == old(openContexts) - {h.context}
      ensures events == old(events) + [ContextClosed(h.context)]
      ensures playwright == old(playwright) && browser == old(browser)
      ensures interactive == old(interactive) && nextHandle == old(nextHandle)
    {
      Log(ContextClosed(h.context));
      openContexts := openContexts - {h.context};
    }

    /** The first half of `get_interactive_context`: a browser of its own, launched
        headless as asked or, when not asked, as configured; the shared one is untouched. */
    method EnterInteractive(headless: Option<bool>) returns (h: InteractiveHandle)
      requires Valid()
      modifies this
      ensures Valid()
      ensures h.headless == (if headless.Some? then headless.value else settings.headless)
      ensures h.browser !in old(interactive) && interactive == old(interactive) + {h.browser}
      ensures events == old(events) + [InteractiveLaunched(h.browser, h.headless)]
      ensures playwright == old(playwright) && browser == old(browser)
      ensures openContexts == old(openContexts)
    {
      var mode := if headless.Some? then headless.value else settings.headless;
      var b := nextHandle;
      nextHandle := nextHandle + 1;
      Log(InteractiveLaunched(b, mode));
      interactive := interactive + {b};
      h := InteractiveHandle(b, mode);
    }

    /** The `finally` of `get_interactive_context`: its own browser is closed. */
    method ExitInteractive(h: InteractiveHandle)
      requires Valid() && h.browser in interactive
      modifies this
      ensures Valid()
      ensures interactive == old(interactive) - {h.browser}
      ensures events == old(events) + [InteractiveClosed(h.browser)]
      ensures playwright == old(playwright) && browser == old(browser)
      ensures openContexts == old(openContexts) && nextHandle == old(nextHandle)
    {
      Log(InteractiveClosed(h.browser));
      interactive := interactive - {h.browser};
    }
  }
}

=== FILE: login.dfy ===
/** The interactive `login` command: how the typed credential is read, the loops that
    try selectors in turn, the `hhtoken` cookie check and when the session is saved.
    What the login page shows is given as observations; prompts are parameters. */
module Login {
  import opened Wrappers
  import opened Text
  import Browser

  /** A stripped input counts as a phone number when it starts with `+` or is all digits. */
  predicate LooksLikePhone(s: string)
    ensures LooksLikePhone(s) ==> s != []
    ensures LooksLikePhone(s) && s[0] != '+' ==> forall i :: 0 <= i < |s| ==> IsDigit(s[i])
    ensures s != [] && s[0] == '+' ==> LooksLikePhone(s)
    ensures IsDigits(s) ==> LooksLikePhone(s)
  {
    StartsWith(s, "+") || IsDigits(s)
  }

  /** The phone number as typed into the national-number field: `+`, spaces and dashes
      removed, then one leading `998` country code dropped. */
  function NormalizePhone(s: string): (r: string)
    ensures '+' !in r && ' ' !in r && '-' !in r
    ensures var kept := Without(s, {'+', ' ', '-'});
      (StartsWith(kept, "998") ==> r == kept[3..]) && (!StartsWith(kept, "998") ==> r == kept)
  {
    var p := Remove(Remove(Remove(s, '+'), ' '), '-');
    RemoveIsWithout(s, '+');
    RemoveAfterWithout(s, {'+'}, ' ');
    RemoveAfterWithout(s, {'+'} + {' '}, '-');
    assert {'+'} + {' '} + {'-'} == {'+', ' ', '-'};
    if StartsWith(p, "998") then p[3..] else p
  }

  /** Only one country code is dropped: a number that still begins with `998` after
      the first one is cut keeps it. */
  lemma OneCountryCodeDropped(s: string)
    requires StartsWith(Without(s, {'+', ' ', '-'}), "998998")
    ensures StartsWith(NormalizePhone(s), "998")
  {
    var kept := Without(s, {'+', ' ', '-'});
    assert kept[..3] == kept[..6][..3];
    assert NormalizePhone(s)[..3] == kept[3..6];
  }

  /** What the user typed, read as a phone number or an e-mail address. */
  datatype Credential = Phone(number: string) | Email(address: string)

  /** The input is stripped first; a phone number is normalised, anything else is
      taken as an e-mail address as it stands. */
  function Classify(typed: string): (c: Credential)
    ensures c.Phone? <==> LooksLikePhone(Strip(typed))
    ensures c.Phone? ==> c.number == NormalizePhone(Strip(typed))
    ensures c.Phone? ==> '+' !in c.number && ' ' !in c.number && '-' !in c.number
    ensures c.Email? ==> Stripped(c.address) && exists i, j :: TrimmedTo(typed, i, j) && c.address == typed[i..j]
  {
    var s := Strip(typed);
    if LooksLikePhone(s) then Phone(NormalizePhone(s)) else Email(s)
  }

  /** Surrounding white space makes no difference: an input already stripped is read
      the same way. */
  lemma ClassifyStripped(typed: string)
    ensures Classify(Strip(typed)) == Classify(typed)
  {
    StripIdempotent(typed);
  }

  /** An address with an `@` that does not begin with `+` is never taken for a phone. */
  lemma AtSignMeansEmail(typed: string)
    requires '@' in Strip(typed) && !StartsWith(Strip(typed), "+")
    ensures Classify(typed).Email?
  {
    var s := Strip(typed);
    var k :| 0 <= k < |s| && s[k] == '@';
    assert !IsDigit(s[k]);
  }

  /** What waiting for one selector gave: nothing within the timeout, or an element,
      whether it is visible, and whether filling or clicking it went through. */
  datatype Probe = Missing | Found(visible: bool, actionOk: bool)

  /** The loop stops at this probe: an element that is visible and, where the loop
      acts on it, took the action. */
  predicate Stops(p: Probe, acts: bool)
  {
    p.Found? && p.visible && (!acts || p.actionOk)
  }

  /** How many probes a loop that stopped at `stop` has looked at. */
  function Scanned(stop: Option<nat>, n: nat): nat
  {
    if stop.Some? then stop.value + 1 else n
  }

  /** The selector loops: try each selector in list order; every element found replaces
      the one held, an exception moves on, and the first visible element (whose fill or
      click, where the loop acts, went through) ends the loop. */
  method ScanSelectors(probes: seq<Probe>, acts: bool) returns (held: Option<nat>, stop: Option<nat>)
    ensures stop.Some? ==> stop.value < |probes| && Stops(probes[stop.value], acts)
    ensures forall j :: 0 <= j < |probes| && (stop.None? || j < stop.value) ==> !Stops(probes[j], acts)
    ensures held.Some? ==>
      held.value < Scanned(stop, |probes|) && probes[held.value].Found?
      && forall j :: held.value < j < Scanned(stop, |probes|) ==> !probes[j].Found?
    ensures held.None? ==> forall j :: 0 <= j < Scanned(stop, |probes|) ==> !probes[j].Found?
    ensures held.Some? <==> exists j :: 0 <= j < |probes| && probes[j].Found?
  {
    held, stop := None, None;
    var i := 0;
    while i < |probes|
      invariant 0 <= i <= |probes|
      invariant forall j :: 0 <= j < i ==> !Stops(probes[j], acts)
      invariant held.Some? ==> held.value < i && probes[held.value].Found?
      invariant held.Some? ==> forall j :: held.value < j < i ==> !probes[j].Found?
      invariant held.None? ==> forall j :: 0 <= j < i ==> !probes[j].Found?
    {
      if probes[i].Found? {
        held := Some(i);
        if Stops(probes[i], acts) {
          stop := Some(i);
          return;
        }
      }
      i := i + 1;
    }
  }

  datatype Cookie = Cookie(name: string, value: string)

  /** `any(c['name'] == 'hhtoken' for c in cookies)`. */
  function HasHhToken(cookies: seq<Cookie>): (found: bool)
    ensures found <==> exists i :: 0 <= i < |cookies| && cookies[i].name == "hhtoken"
  {
    if cookies == [] then false
    else if cookies[0].name == "hhtoken" then true
    else
      var rest := HasHhToken(cookies[1..]);
      assert forall i :: 1 <= i < |cookies| ==> cookies[i] == cookies[1..][i - 1];
      rest
  }

  /** What the login page does, step by step, on an automated run. An `Option<string>`
      is the message of the exception a step raised, if it raised one. */
  datatype LoginObs = LoginObs(
    /** Loading the login page. */
    gotoError: Option<string>,
    /** Finding and clicking the "Kirish" button. */
    loginButtonError: Option<string>,
    /** Finding and filling the national phone-number field. */
    phoneFieldError: Option<string>,
    /** The e-mail field selectors, in their order. */
    emailProbes: seq<Probe>,
    /** Clicking "Keyingi" and saving the screenshot after it. */
    nextError: Option<string>,
    /** The one-time-code field selectors, in their order. */
    otpProbes: seq<Probe>,
    /** Filling the one-time code into the field found. */
    otpFillError: Option<string>,
    /** The confirm button selectors, in their order. */
    confirmProbes: seq<Probe>,
    /** The browser context's cookies at the end. */
    cookies: seq<Cookie>)

  /** Why the `try` block was left early; the message printed is `Message()`. */
  datatype LoginFailure =
    | NavigationFailed(error: string)
    | LoginButtonFailed(error: string)
    | PhoneFieldMissing(error: string)
    | EmailFieldMissing
    | NextFailed(error: string)
    | OtpFillFailed(error: string)
  {
    function Message(): string
    {
      match this
      case NavigationFailed(e) => e
      case LoginButtonFailed(e) => "Kirish tugmasini bosa olmadim: " + e
      case PhoneFieldMissing(e) => "Telefon raqamini kiritish maydoni topilmadi: " + e
      case EmailFieldMissing => "Email kiritish maydonini topa olmadim"
      case NextFailed(e) => e
      case OtpFillFailed(e) => e
    }
  }

  /** What a run did: how it failed if it did, the phone number and one-time code it
      typed, the verdict of the cookie check if it was made, and whether the session
      was written. */
  datatype LoginReport = LoginReport(
    failure: Option<LoginFailure>,
    phoneEntered: Option<string>,
    otpEntered: bool,
    tokenFound: Option<bool>,
    sessionSaved: bool)

  /** Some one-time-code selector gave an element, so the code is typed into it. */
  predicate OtpFieldFound(obs: LoginObs)
  {
    exists j :: 0 <= j < |obs.otpProbes| && obs.otpProbes[j].Found?
  }

  /** No step of the run raised: the page loaded and, on an automated run, the "Kirish"
      click, the phone field, the "Keyingi" click and, where a code field turned up, the
      code fill all went through. An e-mail address always ends in an exception. */
  predicate Completes(headless: bool, typed: string, obs: LoginObs)
  {
    obs.gotoError.None?
    && (headless ==>
          obs.loginButtonError.None? && Classify(typed).Phone? && obs.phoneFieldError.None?
          && obs.nextError.None? && (OtpFieldFound(obs) ==> obs.otpFillError.None?))
  }

  /** The `try` block of `login` and what follows it. `typed` is the answer to the
      credential prompt; a visible browser waits for the user instead of automating. */
  method LoginFlow(headless: bool, typed: string, obs: LoginObs) returns (report: LoginReport)
    ensures report.sessionSaved <==> report.failure.None?
    ensures report.sessionSaved <==> Completes(headless, typed, obs)
    ensures obs.gotoError.Some? ==> report.failure == Some(NavigationFailed(obs.gotoError.value))
    ensures headless && obs.gotoError.None? && obs.loginButtonError.Some? ==>
      report.failure == Some(LoginButtonFailed(obs.loginButtonError.value))
    ensures headless && obs.gotoError.None? && obs.loginButtonError.None? && Classify(typed).Phone? ==>
      (obs.phoneFieldError.Some? ==> report.failure == Some(PhoneFieldMissing(obs.phoneFieldError.value)))
      && (obs.phoneFieldError.None? ==>
            report.phoneEntered == Some(Classify(typed).number)
            && (obs.nextError.Some? ==> report.failure == Some(NextFailed(obs.nextError.value)))
            && (obs.nextError.None? ==>
                  report.otpEntered == (OtpFieldFound(obs) && obs.otpFillError.None?)
                  && (OtpFieldFound(obs) && obs.otpFillError.Some? ==>
                        report.failure == Some(OtpFillFailed(obs.otpFillError.value)))))
    ensures !headless ==>
      report == LoginReport(if obs.gotoError.Some? then Some(NavigationFailed(obs.gotoError.value)) else None,
                            None, false, None, obs.gotoError.None?)
    ensures headless && obs.gotoError.None? && obs.loginButtonError.None? && Classify(typed).Email? ==>
      report.failure == Some(EmailFieldMissing) && report.tokenFound.None?
    ensures report.phoneEntered.Some? ==>
      headless && Classify(typed).Phone? && report.phoneEntered.value == Classify(typed).number
    ensures report.otpEntered ==> report.phoneEntered.Some? && OtpFieldFound(obs)
    ensures report.tokenFound.Some? ==> report.tokenFound.value == HasHhToken(obs.cookies)
    ensures headless && report.failure.None? ==>
      Classify(typed).Phone? && report.phoneEntered.Some? && report.tokenFound == Some(HasHhToken(obs.cookies))
  {
    report := LoginReport(None, None, false, None, false);
    if obs.gotoError.Some? {
      report := report.(failure := Some(NavigationFailed(obs.gotoError.value)));
      return;
    }
    if !headless {
      report := report.(sessionSaved := true);
      return;
    }
    if obs.loginButtonError.Some? {
      report := report.(failure := Some(LoginButtonFailed(obs.loginButtonError.value)));
      return;
    }
    var credential := Classify(typed);
    if credential.Phone? {
      if obs.phoneFieldError.Some? {
        report := report.(failure := Some(PhoneFieldMissing(obs.phoneFieldError.value)));
        return;
      }
      report := report.(phoneEntered := Some(credential.number));
    } else {
      var held, stop := ScanSelectors(obs.emailProbes, true);
      report := report.(failure := Some(EmailFieldMissing));
      return;
    }
    if obs.nextError.Some? {
      report := report.(failure := Some(NextFailed(obs.nextError.value)));
      return;
    }
    var otpField, otpStop := ScanSelectors(obs.otpProbes, false);
    if otpField.Some? {
      if obs.otpFillError.Some? {
        report := report.(failure := Some(OtpFillFailed(obs.otpFillError.value)));
        return;
      }
      report := report.(otpEntered := true);
      var button, buttonStop := ScanSelectors(obs.confirmProbes, true);
    }
    report := report.(tokenFound := Some(HasHhToken(obs.cookies)), sessionSaved := true);
  }

  /** `login`: a private browser from a fresh manager, launched headless as configured,
      closed again on the way out whatever happened; the shared browser is never
      started. */
  method Login(settings: Browser.Settings, typed: string, obs: LoginObs)
    returns (report: LoginReport, manager: Browser.BrowserManager)
    ensures fresh(manager) && manager.Valid()
    ensures manager.interactive == {} && manager.browser.None? && manager.playwright.None?
    ensures |manager.events| == 2 && manager.events[1].InteractiveClosed?
      && manager.events[0] == Browser.InteractiveLaunched(manager.events[1].browser, settings.headless)
    ensures report.sessionSaved <==> report.failure.None?
    ensures report.sessionSaved <==> Completes(settings.headless, typed, obs)
    ensures report.tokenFound.Some? ==> settings.headless && report.tokenFound.value == HasHhToken(obs.cookies)
  {
    manager := new Browser.BrowserManager(settings);
    var h := manager.EnterInteractive(Some(settings.headless));
    report := LoginFlow(settings.headless, typed, obs);
    manager.ExitInteractive(h);
  }
}

=== FILE: page.dfy ===
/** The vacancy page as the apply service sees it. Each locator query of the source
    (`count() > 0`, `title()`, `content()`, `wait_for_selector`) reads one field of the
    current `View`; clicks, fills and settle delays are actions, and after each action
    the page may look entirely different, as the site's `respond` function decides. */
module Pages {
  import opened Wrappers

  /** What can be observed on the page at one moment. */
  datatype View = View(
    title: string,
    content: string,
    /** "text=Siz javob berdingiz" is present (already responded). */
    respondedText: bool,
    /** A link "Написать сопроводительное" is present. */
    coverLetterLink: bool,
    /** `[data-qa='vacancy-response-link-top']` is present. */
    applyTop: bool,
    /** `[data-qa='vacancy-response-link-bottom']` is present. */
    applyBottom: bool,
    /** The button right after either apply link (the dropdown arrow) is present. */
    dropdownArrow: bool,
    /** "text=Kuzatuv xati bilan" (the with-letter option) is present. */
    withLetterOption: bool,
    /** The response popup `[data-qa='vacancy-response-popup']` shows. */
    popup: bool,
    /** The popup's letter textarea is present. */
    popupLetter: bool,
    /** The popup's submit button is present. */
    popupSubmit: bool,
    /** "text=Rezyume yetkazildi" is present. */
    resumeDelivered: bool,
    /** Some `textarea` is present. */
    textarea: bool,
    /** A button with the text "Yuborish" is present. */
    sendButton: bool,
    /** "text=Javob topshirildi" is present. */
    submittedText: bool,
    /** The site's own state, which the service never reads. `respond` may keep in it
        whatever it needs (a count of earlier actions, say), so two moments that look
        alike to the service may still be answered differently. */
    siteState: nat)

  /** The controls the service clicks. `ApplyTop`/`ApplyBottom` are the two apply links. */
  datatype Control =
    | CoverLetterLink | ApplyTop | ApplyBottom | DropdownArrow | WithLetterOption | PopupSubmit | SendButton

  /** The fields the service fills: the popup's letter input and the first textarea. */
  datatype Field = PopupLetter | FirstTextarea

  /** One interaction; `Settle(ms)` is a fixed `wait_for_timeout` delay. */
  datatype Action = Click(control: Control) | Fill(field: Field, text: string) | Settle(ms: nat)

  /** What the page does in answer to an action: how it looks afterwards, and the
      message of the exception the action raised, if it raised one. */
  datatype Reaction = Reaction(view: View, raised: Option<string>)

  class Page {
    var view: View
    /** The site's behaviour: any function at all, so that what is proved about the
        service holds however the page changes after each action. */
    const respond: (View, Action) -> Reaction
    /** Every action performed on the page, in order. */
    ghost var log: seq<Action>

    constructor (loaded: View, respond: (View, Action) -> Reaction)
      ensures view == loaded && this.respond == respond && log == []
    {
      view := loaded;
      this.respond := respond;
      log := [];
    }

    /** Click `c`; the page changes as it responds, and the click may raise. */
    method Click(c: Control) returns (raised: Option<string>)
      modifies this
      ensures Reaction(view, raised) == respond(old(view), Action.Click(c))
      ensures log == old(log) + [Action.Click(c)]
    {
      var reaction := respond(view, Action.Click(c));
      view, raised := reaction.view, reaction.raised;
      log := log + [Action.Click(c)];
    }

    /** Fill `f` with `text`; the page changes as it responds, and the fill may raise. */
    method Fill(f: Field, text: string) returns (raised: Option<string>)
      modifies this
      ensures Reaction(view, raised) == respond(old(view), Action.Fill(f, text))
      ensures log == old(log) + [Action.Fill(f, text)]
    {
      var reaction := respond(view, Action.Fill(f, text));
      view, raised := reaction.view, reaction.raised;
      log := log + [Action.Fill(f, text)];
    }

    /** Wait `ms` milliseconds; the page may change meanwhile. Waiting never raises. */
    method Settle(ms: nat)
      modifies this
      ensures view == respond(old(view), Action.Settle(ms)).view
      ensures log == old(log) + [Action.Settle(ms)]
    {
      view := respond(view, Action.Settle(ms)).view;
      log := log + [Action.Settle(ms)];
    }
  }
}

=== FILE: search.dfy ===
/** `VacancySearchService`: the search URL, the fold of the result cards into records,
    the description rule and the `Vacancy` record. The site is a parameter: what the
    results page shows for a URL, and what a vacancy page shows for its URL. */
module Search {
  import opened Wrappers
  import opened Text
  import opened BotCheck
  import Browser

  /** The two settings the search reads. */
  datatype SearchSettings = SearchSettings(defaultSearchText: string, areaCode: string)

  const SearchPath := "https://hh.ru/search/vacancy"

  /** `query or default_search_text`: a missing or empty query is replaced. */
  function EffectiveQuery(query: Option<string>, settings: SearchSettings): (q: string)
    ensures query.Some? && query.value != "" ==> q == query.value
    ensures query.None? || query.value == "" ==> q == settings.defaultSearchText
  {
    if query.Some? && query.value != "" then query.value else settings.defaultSearchText
  }

  /** The search URL, with query and area pasted in as they are (nothing is encoded). */
  function SearchUrl(query: string, area: string, pageNum: int): (url: string)
    ensures StartsWith(url, SearchPath + "?text=" + query + "&area=" + area)
    ensures url[|SearchPath| + 1..] == QueryString(query, area, pageNum)
  {
    SearchPath + "?" + QueryString(query, area, pageNum)
  }

  function QueryString(query: string, area: string, pageNum: int): string
  {
    "text=" + query + "&area=" + area + "&items_on_page=20&page=" + IntToString(pageNum)
  }

  /** The position of the first `c` in `s`. */
  function IndexOf(s: string, c: char): (r: Option<nat>)
    ensures r.Some? ==> r.value < |s| && s[r.value] == c && c !in s[..r.value]
    ensures r.None? ==> c !in s
  {
    if s == [] then None
    else if s[0] == c then Some(0)
    else
      var t := IndexOf(s[1..], c);
      if t.None? then None
      else
        assert s[..t.value + 1] == [s[0]] + s[1..][..t.value];
        Some(t.value + 1)
  }

  /** The first `c` of `a + [c] + b` is the one after `a` when `a` has none. */
  lemma IndexOfAfter(a: string, c: char, b: string)
    requires c !in a
    ensures IndexOf(a + [c] + b, c) == Some(|a|)
  {
    var s := a + [c] + b;
    assert s[|a|] == c;
    assert s[..|a|] == a;
  }

  /** `s` cut at every `sep`. */
  function Split(s: string, sep: char): (parts: seq<string>)
    ensures |parts| >= 1
  {
    var i := IndexOf(s, sep);
    if i.None? then [s] else [s[..i.value]] + Split(s[i.value + 1..], sep)
  }

  lemma SplitAt(a: string, sep: char, b: string)
    requires sep !in a
    ensures Split(a + [sep] + b, sep) == [a] + Split(b, sep)
  {
    IndexOfAfter(a, sep, b);
    var s := a + [sep] + b;
    assert s[..|a|] == a && s[|a| + 1..] == b;
  }

  /** A query parameter read back: the text before the first `=` and the text after it. */
  function Param(p: string): (string, string)
  {
    var i := IndexOf(p, '=');
    if i.None? then (p, "") else (p[..i.value], p[i.value + 1..])
  }

  function Params(parts: seq<string>): (r: seq<(string, string)>)
    ensures |r| == |parts|
    ensures forall i :: 0 <= i < |parts| ==> r[i] == Param(parts[i])
  {
    if parts == [] then [] else [Param(parts[0])] + Params(parts[1..])
  }

  /** The query string of `url` as a server reads it: after the first `?`, cut at every
      `&`, each piece cut at its first `=`. */
  function QueryParams(url: string): seq<(string, string)>
  {
    var i := IndexOf(url, '?');
    if i.None? then [] else Params(Split(url[i.value + 1..], '&'))
  }

  lemma ParamOf(key: string, value: string)
    requires '=' !in key
    ensures Param(key + "=" + value) == (key, value)
  {
    IndexOfAfter(key, '=', value);
    var s := key + "=" + value;
    assert s[..|key|] == key && s[|key| + 1..] == value;
  }

  lemma SplitNone(a: string, sep: char)
    requires sep !in a
    ensures Split(a, sep) == [a]
  {
  }

  /** Four `&`-free pieces joined by `&` split back into those four. */
  lemma SplitFour(p1: string, p2: string, p3: string, p4: string)
    requires '&' !in p1 && '&' !in p2 && '&' !in p3 && '&' !in p4
    ensures Split(p1 + ['&'] + (p2 + ['&'] + (p3 + ['&'] + p4)), '&') == [p1, p2, p3, p4]
  {
    var t3 := p3 + ['&'] + p4;
    var t2 := p2 + ['&'] + t3;
    SplitNone(p4, '&');
    SplitAt(p3, '&', p4);
    SplitAt(p2, '&', t3);
    SplitAt(p1, '&', t2);
  }

  /** The search URL's parameters are read from its query string. */
  lemma UrlQuery(query: string, area: string, pageNum: int)
    ensures QueryParams(SearchUrl(query, area, pageNum)) == Params(Split(QueryString(query, area, pageNum), '&'))
  {
    var rest := QueryString(query, area, pageNum);
    assert '?' !in SearchPath;
    assert SearchUrl(query, area, pageNum) == SearchPath + ['?'] + rest;
    IndexOfAfter(SearchPath, '?', rest);
    assert (SearchPath + ['?'] + rest)[|SearchPath| + 1..] == rest;
  }

  /** The query string is its four `key=value` pieces joined by `&`. */
  lemma QueryPieces(query: string, area: string, n: string, pageNum: int)
    requires n == IntToString(pageNum)
    ensures QueryString(query, area, pageNum)
         == ("text" + "=" + query) + ['&'] + (("area" + "=" + area) + ['&']
            + (("items_on_page" + "=" + "20") + ['&'] + ("page" + "=" + n)))
  {
  }

  /** Pieces `key=value` whose keys have no `=` read back as those pairs. */
  lemma ParamsOfPairs(k1: string, v1: string, k2: string, v2: string, k3: string, v3: string, k4: string, v4: string)
    requires '=' !in k1 && '=' !in k2 && '=' !in k3 && '=' !in k4
    ensures Params([k1 + "=" + v1, k2 + "=" + v2, k3 + "=" + v3, k4 + "=" + v4]) == [(k1, v1), (k2, v2), (k3, v3), (k4, v4)]
  {
    ParamOf(k1, v1);
    ParamOf(k2, v2);
    ParamOf(k3, v3);
    ParamOf(k4, v4);
  }

  /** The decimal text of a number has no `&`. */
  lemma NumberHasNoAmpersand(pageNum: int)
    ensures '&' !in IntToString(pageNum)
  {
    var n := IntToString(pageNum);
    forall k | 0 <= k < |n| ensures n[k] != '&' { }
  }

  /** The four pieces of a search query string read back as their pairs when no value
      holds `&`. */
  lemma ParseSearchQuery(query: string, area: string, n: string)
    requires '&' !in query && '&' !in area && '&' !in n
    ensures Params(Split(("text" + "=" + query) + ['&'] + (("area" + "=" + area) + ['&']
                   + (("items_on_page" + "=" + "20") + ['&'] + ("page" + "=" + n))), '&'))
         == [("text", query), ("area", area), ("items_on_page", "20"), ("page", n)]
  {
    SplitFour("text" + "=" + query, "area" + "=" + area, "items_on_page" + "=" + "20", "page" + "=" + n);
    ParamsOfPairs("text", query, "area", area, "items_on_page", "20", "page", n);
  }

  /** A query and area free of `&` come back out of the URL as the four parameters, in
      order and unchanged, and the page number as its decimal text. */
  lemma SearchUrlParams(query: string, area: string, pageNum: int)
    requires '&' !in query && '&' !in area
    ensures QueryParams(SearchUrl(query, area, pageNum))
         == [("text", query), ("area", area), ("items_on_page", "20"), ("page", IntToString(pageNum))]
  {
    var n := IntToString(pageNum);
    NumberHasNoAmpersand(pageNum);
    QueryPieces(query, area, n, pageNum);
    UrlQuery(query, area, pageNum);
    ParseSearchQuery(query, area, n);
  }

  lemma AmpersandRegroup(a: string, b: string, rest: string)
    ensures ("text" + "=" + (a + "&" + b)) + ['&'] + rest == ("text" + "=" + a) + ['&'] + (b + ['&'] + rest)
  {
  }

  /** A search query string whose query is `a&b` reads back as five pieces. */
  lemma ParseAmpersandQuery(a: string, b: string, area: string, n: string)
    requires '&' !in a && '&' !in b && '&' !in area && '&' !in n
    ensures var ps := Params(Split(("text" + "=" + (a + "&" + b)) + ['&'] + (("area" + "=" + area) + ['&']
                                   + (("items_on_page" + "=" + "20") + ['&'] + ("page" + "=" + n))), '&'));
      |ps| == 5 && ps[0] == ("text", a) && ps[1] == Param(b)
  {
    var p2, p3, p4 := "area" + "=" + area, "items_on_page" + "=" + "20", "page" + "=" + n;
    var rest := p2 + ['&'] + (p3 + ['&'] + p4);
    AmpersandRegroup(a, b, rest);
    SplitFour(b, p2, p3, p4);
    var p1 := "text" + "=" + a;
    assert '&' !in p1;
    SplitAt(p1, '&', b + ['&'] + rest);
    ParamOf("text", a);
  }

  /** The query is not encoded: an `&` inside it cuts it in two, and the server reads
      five parameters, the first holding only the text before the `&`. */
  lemma UnencodedAmpersand(a: string, b: string, area: string, pageNum: int)
    requires '&' !in a && '&' !in b && '&' !in area
    ensures var ps := QueryParams(SearchUrl(a + "&" + b, area, pageNum));
      |ps| == 5 && ps[0] == ("text", a) && ps[1] == Param(b)
  {
    var n := IntToString(pageNum);
    NumberHasNoAmpersand(pageNum);
    QueryPieces(a + "&" + b, area, n, pageNum);
    UrlQuery(a + "&" + b, area, pageNum);
    ParseAmpersandQuery(a, b, area, n);
  }

  /** What one result card yields: nothing usable (its title never became visible, or
      reading it raised), or its title, its link (`href` may be absent) and its
      employer's name if the card shows one. */
  datatype CardObs = Unparsable | Card(title: string, href: Option<string>, employer: Option<string>)

  const UnknownEmployer := "Noma'lum"

  /** One entry of `vacancy_data`. */
  datatype Listing = Listing(title: string, url: Option<string>, employer: string)

  function ListingOf(c: CardObs): (l: Listing)
    requires c.Card?
    ensures l.title == c.title && l.url == c.href
    ensures l.employer == (if c.employer.Some? then c.employer.value else UnknownEmployer)
  {
    Listing(c.title, c.href, if c.employer.Some? then c.employer.value else UnknownEmployer)
  }

  /** The cards that parsed, as listings, in card order. */
  function Listings(cards: seq<CardObs>): (r: seq<Listing>)
    ensures |r| <= |cards|
  {
    if cards == [] then []
    else if cards[|cards| - 1].Card? then Listings(cards[..|cards| - 1]) + [ListingOf(cards[|cards| - 1])]
    else Listings(cards[..|cards| - 1])
  }

  /** The fold is an order-preserving filter: the listings of joined card lists are the
      listings of each, joined. */
  lemma {:induction false} ListingsAppend(a: seq<CardObs>, b: seq<CardObs>)
    ensures Listings(a + b) == Listings(a) + Listings(b)
    decreases |b|
  {
    if b == [] {
      assert a + b == a;
    } else {
      var init, last := b[..|b| - 1], b[|b| - 1];
      assert (a + b)[..|a + b| - 1] == a + init;
      ListingsAppend(a, init);
    }
  }

  /** Every card that parsed gives exactly one listing and every other none. */
  lemma {:induction false} ListingsCount(cards: seq<CardObs>)
    ensures |Listings(cards)| == |set i | 0 <= i < |cards| && cards[i].Card?|
  {
    if cards != [] {
      var init := cards[..|cards| - 1];
      ListingsCount(init);
      var s := set i | 0 <= i < |init| && init[i].Card?;
      var t := set i | 0 <= i < |cards| && cards[i].Card?;
      if cards[|cards| - 1].Card? {
        assert t == s + {|cards| - 1};
      } else {
        assert t == s;
      }
    }
  }

  /** The card loop: skip cards that fail, keep the order, default the employer. */
  method CollectListings(cards: seq<CardObs>) returns (data: seq<Listing>)
    ensures data == Listings(cards)
  {
    data := [];
    for i := 0 to |cards|
      invariant data == Listings(cards[..i])
    {
      assert cards[..i + 1][..i] == cards[..i];
      if cards[i].Card? {
        data := data + [ListingOf(cards[i])];
      }
    }
    assert cards[..|cards|] == cards;
  }

  /** What a vacancy page shows: navigation or waiting failed, the description element
      is missing, or its text. */
  datatype DescriptionObs = Unreachable | NoDescription | Description(text: string)

  /** `_get_vacancy_description`: the stripped text, or "" on any failure. */
  function DescriptionOf(obs: DescriptionObs): (d: string)
    ensures Stripped(d)
    ensures obs.Description? ==> exists i, j :: TrimmedTo(obs.text, i, j) && d == obs.text[i..j]
    ensures !obs.Description? ==> d == ""
  {
    if obs.Description? then Strip(obs.text) else ""
  }

  /** A JSON value of a record: a string, or `null` for a missing link. */
  datatype JsonValue = JStr(s: string) | JNull

  function JsonOf(s: Option<string>): JsonValue
  {
    if s.Some? then JStr(s.value) else JNull
  }

  /** `Vacancy`. */
  datatype Vacancy = Vacancy(title: string, url: Option<string>, employer: string, description: string)
  {
    /** `to_dict`: exactly the four keys. */
    function ToDict(): (d: map<string, JsonValue>)
      ensures d.Keys == {"title", "url", "employer", "description"}
      ensures d["title"].JStr? && d["employer"].JStr? && d["description"].JStr?
    {
      map["title" := JStr(title), "url" := JsonOf(url), "employer" := JStr(employer),
          "description" := JStr(description)]
    }
  }

  /** Reading a record back. */
  function VacancyOf(d: map<string, JsonValue>): Option<Vacancy>
  {
    if d.Keys == {"title", "url", "employer", "description"}
       && d["title"].JStr? && d["employer"].JStr? && d["description"].JStr?
    then Some(Vacancy(d["title"].s, if d["url"].JStr? then Some(d["url"].s) else None,
                      d["employer"].s, d["description"].s))
    else None
  }

  /** `to_dict` loses nothing. */
  lemma ToDictRoundTrip(v: Vacancy)
    ensures VacancyOf(v.ToDict()) == Some(v)
  {
    var d := v.ToDict();
    assert d["title"] == JStr(v.title) && d["employer"] == JStr(v.employer);
    assert d["description"] == JStr(v.description) && d["url"] == JsonOf(v.url);
  }

  /** The record for one listing, its description read from the vacancy's page; a
      listing without a link gets "" (navigating to no URL fails). */
  function RecordOf(l: Listing, site: string -> DescriptionObs): (rec: map<string, JsonValue>)
    ensures VacancyOf(rec) == Some(Vacancy(l.title, l.url, l.employer,
                                           if l.url.Some? then DescriptionOf(site(l.url.value)) else ""))
    ensures l.url.None? ==> rec["url"] == JNull && rec["description"] == JStr("")
  {
    ToDictRoundTrip(Vacancy(l.title, l.url, l.employer, if l.url.Some? then DescriptionOf(site(l.url.value)) else ""));
    Vacancy(l.title, l.url, l.employer, if l.url.Some? then DescriptionOf(site(l.url.value)) else "").ToDict()
  }

  /** The description loop: one record per listing, in order. */
  method DescribeAll(data: seq<Listing>, site: string -> DescriptionObs) returns (records: seq<map<string, JsonValue>>)
    ensures |records| == |data|
    ensures forall i :: 0 <= i < |data| ==> records[i] == RecordOf(data[i], site)
  {
    records := [];
    for i := 0 to |data|
      invariant |records| == i
      invariant forall k :: 0 <= k < i ==> records[k] == RecordOf(data[k], site)
    {
      var description := "";
      if data[i].url.Some? {
        description := DescriptionOf(site(data[i].url.value));
      }
      records := records + [Vacancy(data[i].title, data[i].url, data[i].employer, description).ToDict()];
    }
  }

  /** The results page as the search sees it after navigation. */
  datatype ResultsPage = ResultsPage(title: string, content: string, resultsShown: bool, cards: seq<CardObs>)

  /** Why `search` raises instead of returning records. */
  datatype SearchError =
    | SessionMissing(message: string)
    | PageUnavailable(message: string)
    | NavigationFailed(message: string)
    | BotDetected(message: string)
    | ResultsTimeout

  const BotDetectedMessage := "Bot himoyasi ishga tushdi (kapcha aniqlandi)"

  /** `search`: default the query, open a page with the saved session, load the URL,
      stop on bot protection or when no result appears, collect the cards, then fetch
      each description; the context is closed on every way out. `serp` is what loading
      a URL gives, `site` what each vacancy page shows. */
  method SearchVacancies(manager: Browser.BrowserManager, settings: SearchSettings, query: Option<string>,
                         pageNum: int, sessionFileExists: bool, open: Browser.OpenObs,
                         serp: string -> Result<ResultsPage, string>, site: string -> DescriptionObs)
    returns (r: Result<seq<map<string, JsonValue>>, SearchError>)
    requires manager.Valid()
    modifies manager
    ensures manager.Valid() && manager.openContexts == old(manager.openContexts)
    ensures manager.interactive == old(manager.interactive)
    ensures manager.browser.Some?
    ensures old(manager.browser).Some? ==>
      manager.browser == old(manager.browser) && manager.playwright == old(manager.playwright)
    ensures var launch := if old(manager.browser).None? then Browser.StartEvents(old(manager.nextHandle), manager.settings) else [];
      (!sessionFileExists || open.contextError.Some? ==> manager.events == old(manager.events) + launch)
      && (sessionFileExists && open.contextError.None? && open.pageError.Some? ==>
            exists c :: c !in old(manager.openContexts)
              && manager.events == old(manager.events) + launch + Browser.AbortedScope(c, true))
      && (Browser.OpenFailure(manager.settings, true, sessionFileExists, open).None? ==>
            exists c :: c !in old(manager.openContexts)
              && manager.events == old(manager.events) + launch + Browser.PageScope(c, true, manager.settings.pageTimeout))
    ensures !sessionFileExists ==> r == Err(SessionMissing(Browser.SessionMissingMessage(manager.settings.sessionFile)))
    ensures sessionFileExists && Browser.OpenFailure(manager.settings, true, sessionFileExists, open).Some? ==>
      r == Err(PageUnavailable(Browser.OpenFailure(manager.settings, true, sessionFileExists, open).value))
    ensures Browser.OpenFailure(manager.settings, true, sessionFileExists, open).None? ==>
      var loaded := serp(SearchUrl(EffectiveQuery(query, settings), settings.areaCode, pageNum));
      && (loaded.Err? ==> r == Err(NavigationFailed(loaded.error)))
      && (loaded.Ok? && BotProtected(loaded.value.title, loaded.value.content) ==> r == Err(BotDetected(BotDetectedMessage)))
      && (loaded.Ok? && !BotProtected(loaded.value.title, loaded.value.content) && !loaded.value.resultsShown ==>
            r == Err(ResultsTimeout))
      && (loaded.Ok? && !BotProtected(loaded.value.title, loaded.value.content) && loaded.value.resultsShown ==>
            r.Ok?
            && |r.value| == |Listings(loaded.value.cards)|
            && forall i :: 0 <= i < |r.value| ==> r.value[i] == RecordOf(Listings(loaded.value.cards)[i], site))
  {
    var q := EffectiveQuery(query, settings);
    var entered := manager.EnterPage(true, sessionFileExists, open);
    if entered.Err? {
      return if sessionFileExists then Err(PageUnavailable(entered.error)) else Err(SessionMissing(entered.error));
    }
    var url := SearchUrl(q, settings.areaCode, pageNum);
    var loaded := serp(url);
    if loaded.Err? {
      r := Err(NavigationFailed(loaded.error));
    } else if BotProtected(loaded.value.title, loaded.value.content) {
      r := Err(BotDetected(BotDetectedMessage));
    } else if !loaded.value.resultsShown {
      r := Err(ResultsTimeout);
    } else {
      var data := CollectListings(loaded.value.cards);
      var records := DescribeAll(data, site);
      r := Ok(records);
    }
    manager.ExitPage(entered.value);
  }
}

=== FILE: text.dfy ===
/** String rules the services rely on: ASCII lower-casing, substring search,
    Python's `str.strip`, digit tests and `str.replace(c, '')`. */
module Text {

  /** Python's `str.isspace` characters (the set `str.strip()` removes). */
  predicate IsSpace(c: char)
  {
    c == ' ' || ('\t' <= c <= '\r') || ('\U{1c}' <= c <= '\U{1f}') || c == '\U{85}' || c == '\U{a0}'
    || c == '\U{1680}' || ('\U{2000}' <= c <= '\U{200a}') || c == '\U{2028}' || c == '\U{2029}'
    || c == '\U{202f}' || c == '\U{205f}' || c == '\U{3000}'
  }

  predicate IsDigit(c: char) { '0' <= c <= '9' }

  /** `s.isdigit()`: non-empty and made of digits only. */
  predicate IsDigits(s: string)
  {
    |s| > 0 && forall i :: 0 <= i < |s| ==> IsDigit(s[i])
  }

  function LowerChar(c: char): (d: char)
    ensures 'A' <= c <= 'Z' ==> d as int == c as int + 32
    ensures !('A' <= c <= 'Z') ==> d == c
  {
    if 'A' <= c <= 'Z' then (c as int + 32) as char else c
  }

  /** `s.lower()` restricted to ASCII letters. */
  function Lower(s: string): (r: string)
    ensures |r| == |s|
    ensures forall i :: 0 <= i < |s| ==> r[i] == LowerChar(s[i])
  {
    if s == [] then [] else [LowerChar(s[0])] + Lower(s[1..])
  }

  predicate StartsWith(s: string, prefix: string)
  {
    |prefix| <= |s| && s[..|prefix|] == prefix
  }

  /** Python's `w in s` for strings. */
  predicate Contains(s: string, w: string)
    decreases |s|
  {
    StartsWith(s, w) || (|s| > 0 && Contains(s[1..], w))
  }

  /** `w` occurs in `s` starting at position `i`. */
  predicate OccursAt(s: string, w: string, i: int)
  {
    0 <= i <= |s| - |w| && s[i..i + |w|] == w
  }

  /** `w` occurs somewhere in `s`. */
  ghost predicate Occurs(s: string, w: string)
  {
    exists i :: OccursAt(s, w, i)
  }

  /** `Contains` holds exactly when `w` occurs at some position of `s`. */
  lemma {:induction false} ContainsAt(s: string, w: string)
    ensures Contains(s, w) <==> exists i :: OccursAt(s, w, i)
    decreases |s|
  {
    if StartsWith(s, w) {
      assert OccursAt(s, w, 0);
    } else {
      if exists i :: OccursAt(s, w, i) {
        var i :| OccursAt(s, w, i);
        assert i != 0;
        assert OccursAt(s[1..], w, i - 1);
      }
      if |s| > 0 {
        ContainsAt(s[1..], w);
        if Contains(s[1..], w) {
          var i :| OccursAt(s[1..], w, i);
          assert OccursAt(s, w, i + 1);
        }
      }
    }
  }

  /** A word longer than the text never occurs in it. */
  lemma {:induction false} ContainsNeedsRoom(s: string, w: string)
    ensures Contains(s, w) ==> |w| <= |s|
    decreases |s|
  {
    if |s| > 0 && !StartsWith(s, w) { ContainsNeedsRoom(s[1..], w); }
  }

  /** `Contains(Lower(s), w)` ignores the case of ASCII letters in `s`. */
  lemma ContainsLowerCaseless(s: string, t: string, w: string)
    requires |s| == |t| && forall i :: 0 <= i < |s| ==> LowerChar(s[i]) == LowerChar(t[i])
    ensures Contains(Lower(s), w) <==> Contains(Lower(t), w)
  {
    assert Lower(s) == Lower(t);
  }

  /** `s.replace(c, '')`. */
  function Remove(s: string, c: char): (r: string)
    ensures c !in r
    ensures |r| <= |s|
    ensures c !in s ==> r == s
  {
    if s == [] then []
    else if s[0] == c then Remove(s[1..], c)
    else [s[0]] + Remove(s[1..], c)
  }

  /** Keep the characters of `s` that are not in `drop`, in order. */
  function Without(s: string, drop: set<char>): (r: string)
    ensures forall d :: d in r <==> d in s && d !in drop
  {
    if s == [] then [] else if s[0] in drop then Without(s[1..], drop) else [s[0]] + Without(s[1..], drop)
  }

  /** Removing one character after removing a set of others removes them all. */
  lemma {:induction false} RemoveAfterWithout(s: string, drop: set<char>, c: char)
    ensures Remove(Without(s, drop), c) == Without(s, drop + {c})
  {
    if s != [] { RemoveAfterWithout(s[1..], drop, c); }
  }

  lemma {:induction false} RemoveIsWithout(s: string, c: char)
    ensures Remove(s, c) == Without(s, {c})
  {
    if s != [] { RemoveIsWithout(s[1..], c); }
  }

  /** Text with nothing to strip at either end. */
  predicate Stripped(s: string) { |s| == 0 || (!IsSpace(s[0]) && !IsSpace(s[|s| - 1])) }
  /** `s[i..j]` is what is left of `s` once the white space before `i` and from `j` on is cut. */
  predicate TrimmedTo(s: string, i: int, j: int)
  {
    0 <= i <= j <= |s| && (forall k :: 0 <= k < i ==> IsSpace(s[k])) && (forall k :: j <= k < |s| ==> IsSpace(s[k]))
  }
  function LeadingSpace(s: string): (n: nat)
    ensures n <= |s| && forall k :: 0 <= k < n ==> IsSpace(s[k])
    ensures n < |s| ==> !IsSpace(s[n])
  {
    if s != [] && IsSpace(s[0]) then 1 + LeadingSpace(s[1..]) else 0
  }
  function TrailingSpace(s: string): (n: nat)
    ensures n <= |s| && forall k :: |s| - n <= k < |s| ==> IsSpace(s[k])
    ensures n < |s| ==> !IsSpace(s[|s| - n - 1])
  {
    if s != [] && IsSpace(s[|s| - 1]) then 1 + TrailingSpace(s[..|s| - 1]) else 0
  }
  /** `s.strip()`: the middle of `s` once the white space at both ends is cut. */
  function Strip(s: string): (r: string)
    ensures Stripped(r)
    ensures exists i, j :: TrimmedTo(s, i, j) && r == s[i..j]
  {
    var a := LeadingSpace(s);
    var b := TrailingSpace(s[a..]);
    assert TrimmedTo(s, a, |s| - b) by {
      forall k | |s| - b <= k < |s| ensures IsSpace(s[k]) { assert s[k] == s[a..][k - a]; }
    }
    s[a..|s| - b]
  }
  /** Stripping twice is stripping once. */
  lemma StripIdempotent(s: string)
    ensures Strip(Strip(s)) == Strip(s)
  {
    var r := Strip(s);
    assert LeadingSpace(r) == 0;
    assert TrailingSpace(r) == 0;
  }

  /** Decimal rendering of an integer, as Python's `str(n)`. */
  function IntToString(n: int): (r: string)
    ensures |r| > 0
    ensures forall i :: 0 <= i < |r| ==> IsDigit(r[i]) || (i == 0 && r[i] == '-')
    decreases if n < 0 then 1 - n else n
  {
    if n < 0 then "-" + NatToString(-n) else NatToString(n)
  }

  function NatToString(n: nat): (r: string)
    ensures IsDigits(r)
  {
    if n < 10 then [DigitChar(n)] else NatToString(n / 10) + [DigitChar(n % 10)]
  }

  /** The number a string of decimal digits denotes, most significant digit first. */
  function DecimalValue(s: string): nat
    requires forall i :: 0 <= i < |s| ==> IsDigit(s[i])
  {
    if s == [] then 0
    else
      assert IsDigit(s[|s| - 1]);
      10 * DecimalValue(s[..|s| - 1]) + (s[|s| - 1] as int - '0' as int)
  }

  /** `str(n)` of a natural number reads back as `n`, with no leading zero unless it is
      zero itself. */
  lemma {:induction false} NatToStringValue(n: nat)
    ensures DecimalValue(NatToString(n)) == n
    ensures NatToString(n)[0] == '0' ==> n == 0
  {
    if n >= 10 {
      NatToStringValue(n / 10);
      var r := NatToString(n);
      assert r[..|r| - 1] == NatToString(n / 10);
      assert r[0] == NatToString(n / 10)[0];
    }
  }

  /** `str(n)` reads back as `n`: its digits give `n`, after a `-` exactly when `n` is
      negative. */
  lemma IntToStringValue(n: int)
    ensures var r := IntToString(n);
      (r[0] == '-' <==> n < 0)
      && (n >= 0 ==> DecimalValue(r) == n)
      && (n < 0 ==> DecimalValue(r[1..]) == -n)
  {
    if n < 0 {
      NatToStringValue(-n);
      assert IntToString(n)[1..] == NatToString(-n);
    } else {
      NatToStringValue(n);
    }
  }

  function DigitChar(d: nat): (c: char)
    requires d < 10
    ensures IsDigit(c)
  {
    ('0' as int + d) as char
  }
}

=== FILE: wrappers.dfy ===
/** Optional values and results that may carry an error, for the places where the
    services return `None` or raise. */
module Wrappers {

  datatype Option<+T> = None | Some(value: T)

  datatype Result<+T, +E> = Ok(value: T) | Err(error: E)
}
